=== FILE: README.md ===
# Tile-grid movement and interaction core, modelled in Dafny

This project models the entity core of a Phaser tile-grid adventure game:
- the player's grid controller (`Player.ts`);
- Max, the companion who trails the player and speaks a short intro (`Max.ts`);
- the patrolling NPCs with a line of sight (`NPC.ts`);
- the proximity signs, small and big (`interactive/sign.ts`, `interactive/bigsign.ts`);
- the persisted player record (`PlayerData.ts`);
- the zone scene: it builds all of the above from the level's object layer, runs them each frame in a fixed order, and hands over to the next zone through a debounced exit and a camera fade (`GameSceneBase.ts`).

Every operation is a pure function over immutable datatypes. Positions are integer pixels. The engine's inputs become parameters:
- the arrow and space keys are a `Keys` value;
- "the body is at rest" is a boolean;
- the NPC timer's random pick is a `Direction` argument;
- the rectangle-overlap test is a function parameter;
- "the camera fade-out finished" is the event `FadeOutComplete`.

An exception the source would throw is an explicit `Threw` outcome. It carries the state the scene had reached when it threw. A throw inside the `async` transition is different: it rejects a promise that nobody awaits, so the overlap callback returns normally and the model reports it as handled, with the guards it had already set (`NoPlayerLocksExits`).

Modules, one per file:
- `Grid` (`grid.dfy`): directions and their numeric codes, positions, JavaScript's truncating `%`, and `Math.round` on a quotient.
- `PlayerDataModel` (`player_data.dfy`): the save record.
- `Companion` (`companion.dfy`): Max.
- `PlayerMotion` (`player.dfy`): the player.
- `Patrol` (`npc.dfy`): NPCs.
- `ProximitySigns` (`signs.dfy`): both kinds of sign. They differ only in which scene flag they write.
- `SceneCoordinator` (`scene.dfy`): the zone scene.

Behaviour worth knowing, each proved below:
- The player's walk-animation gate tests for keys starting with `player_walk`. The player only ever plays `player_up`, `player_stand_up` and so on, so the gate never closes and the animation-complete handler never acts (`WalkGateNeverCloses`, `AnimCompleteIsInert`).
- The step towards the next tile uses JavaScript's `%`. From a tile centre at a negative coordinate the step is 0, not a tile (`StepFromCentre`).
- Max's intro dialogue is the module-level array itself, not a copy. Showing lines removes them from that array, so the intro plays once only (`IntroPlaysOnce`).
- A stationary NPC gets no move timer when built. It gets one the first time a player leaves its sight (`StationaryTimerStartsAfterSighting`).
- The sign flags of the scene end up as the state of the last sign checked, not "any sign overlaps" (`LastSignWins`).
- A sighted NPC returns from `preUpdate` before its `moveTo` and its arrival snap, so its body keeps the velocity it last had. An NPC that sees the player mid-step glides past its target and can leave its patrol box (`SightedPatrolDriftsOutOfBox`).
- A sign, big sign or spawn point without properties makes `create` throw when it reads the first property. The objects before it are loaded and none after it (`UnreadableObjectAbortsLayer`).

Two behaviours that are easy to misread:
- Max, when idle, faces the player along the strictly larger axis. A tie goes to the vertical axis.
- An exit without a `targetScene` property throws a TypeError. The throw comes after `debounce` and `isFading` were set and before anything resets them, so every exit of that scene is dead from then on (`MissingTargetLocksExits`).

## Model

| member | source | states |
|---|---|---|
| Grid.DistSq | src/Player.ts:155 | the squared pixel distance is zero exactly when two positions coincide |
| Grid.CloserThanOneIsEqual | src/Player.ts:155 | on integer pixels, "closer than one pixel" means "the same position" |
| Grid.JsRem | src/Player.ts:131-132 | JavaScript's `%` truncates toward zero: the remainder has the dividend's sign and is smaller than the divisor, with the matching quotient identity |
| Grid.JsRemZeroIff | src/Max.ts:72 | the truncating remainder is zero exactly when the mathematical one is, so the sampling test does not depend on sign |
| Grid.RoundDiv | src/Player.ts:69 | `Math.round(n / d)`: the integer nearest to n/d, halves rounding up |
| Grid.Code | src/Player.ts:13-18 | the movement codes are 1 to 4 |
| Grid.FromCode | src/Player.ts:13-18 | a number decodes to a direction exactly when it is 1 to 4, and encoding that direction gives the number back |
| Grid.CodeRoundTrip | src/Player.ts:13-18 | decoding the code of a direction gives that direction |
| PlayerDataModel.SetPlayerGender | src/PlayerData.ts:13-16 | writes the gender and no other field |
| PlayerDataModel.SetPlayerName | src/PlayerData.ts:22-24 | writes the name read back by both `getPlayerName` and `getName`, and no other field |
| PlayerDataModel.SetCurrentScene | src/PlayerData.ts:30-32 | writes the current scene and no other field |
| PlayerDataModel.SetIntroScene | src/PlayerData.ts:38-40 | writes the intro scene and no other field |
| PlayerDataModel.SetCreditsScene | src/PlayerData.ts:46-48 | writes the credits scene and no other field |
| PlayerDataModel.SetPastScene | src/PlayerData.ts:54-56 | writes the past scene and no other field |
| PlayerDataModel.SetPosition | src/PlayerData.ts:62-65 | writes both saved coordinates and no other field |
| PlayerDataModel.SetActive | src/PlayerData.ts:72-74 | writes the active flag and no other field |
| PlayerDataModel.SetDirectionString | src/PlayerData.ts:80-98 | a direction name is stored as its movement code, any other string as Up's code; the stored value is always a valid code |
| PlayerDataModel.SetDirectionInteger | src/PlayerData.ts:100-102 | stores any number as the direction, valid code or not, and no other field |
| PlayerDataModel.SetMaxFollowing | src/PlayerData.ts:117-119 | writes the companion-following flag and no other field |
| PlayerDataModel.SetLastDirection | src/PlayerData.ts:120-122 | writes `lastDirection` only; the direction read by `getDirection` is untouched |
| PlayerDataModel.DirectionStringRoundTrip | src/PlayerData.ts:80-98 | naming a direction and decoding the stored number gives that direction back |
| PlayerDataModel.DirectionIntegerRoundTrip | src/PlayerData.ts:76-78 | `getDirection` after `setDirectionInteger(n)` returns n; `setLastDirection` does not change it |
| PlayerDataModel.SceneSettersIndependent | src/GameSceneBase.ts:297-301 | the past-scene and current-scene writes commute, a later write overrides an earlier one, and the past scene becomes the old current scene |
| Companion.NewMax | src/Max.ts:13-21 | a new companion has an empty waypoint queue, no target, no dialogue and is not following |
| Companion.Facing | src/Max.ts:37-47 | faces horizontally exactly when the horizontal distance is strictly larger, towards the sign of the displacement |
| Companion.FacingTieIsVertical | src/Max.ts:42-46 | equal distances on both axes always face up or down |
| Companion.Record | src/Max.ts:66-75 | while following, appends the point exactly when it lies on the 8-pixel grid and differs from the tail; never anything else, and never when not following |
| Companion.RecordKeepsNoAdjacentDup | src/Max.ts:66-75 | recording keeps consecutive waypoints distinct |
| Companion.RecordTwiceGrowsOnce | src/Max.ts:69-72 | recording the same point twice grows the queue by at most one |
| Companion.UpdateSign | src/Max.ts:163-169 | shows the front dialogue line and removes it from the queue; with an empty queue closes the box and keeps the last line |
| Companion.SetFollowing | src/Max.ts:98-105 | only a change of value loads the intro and shows its next line; the first load starts at line one, later loads reuse the already drained array |
| Companion.SetFollowingIdempotent | src/Max.ts:98-105 | setting the same value twice acts once |
| Companion.PickWaypoint | src/Max.ts:34-47 | idle with more than one waypoint: takes the front as target and walks facing it; idle otherwise: stands facing the leader |
| Companion.Arrive | src/Max.ts:49-56 | closer than 2 pixels to the target: lands on it, stops and becomes idle; otherwise unchanged |
| Companion.SpaceKey | src/Max.ts:57-63 | a press edge shows the front dialogue line and removes it, exactly when there is one; a held or released key leaves the dialogue alone; the latch ends up equal to the key; nothing else changes |
| Companion.Update | src/Max.ts:33-64 | a frame removes at most the front waypoint, never empties a non-empty queue, advances the dialogue by at most one line, and not at all while the spacebar is still latched from an earlier press; an idle companion with a longer trail either heads for the popped waypoint or, already within reach of it, lands on it in the same frame |
| Companion.Advance | src/Max.ts:95 | the body seeks its current waypoint, never moving away from it and landing exactly when it is within reach on both axes; an idle companion stays put; only the position changes |
| Companion.UpdateKeepsNoAdjacentDup | src/Max.ts:33-36 | playback keeps consecutive waypoints distinct |
| Companion.HeldSpaceAdvancesOnce | src/Max.ts:57-63 | holding the spacebar over two frames advances the dialogue at most once |
| Companion.IntroPlaysOnce | src/Max.ts:6-9 | the intro's first line shows on befriending; after it is drained, toggling following off and on shows nothing |
| PlayerMotion.InitialDirection | src/Player.ts:56 | the saved direction, unless it is missing or zero, in which case Up |
| PlayerMotion.NewPlayer | src/Player.ts:41-60 | a new player stands on its target, may move, has no companion, and faces the initial direction |
| PlayerMotion.SetMax | src/Player.ts:220-223 | attaches the companion with the requested following flag, keeping its position, trail and current waypoint, and unchanged when the flag already matches; nothing else in the player changes |
| PlayerMotion.SnapToGrid | src/Player.ts:67-70 | the result is a tile centre within half a tile of the input, halves going up |
| PlayerMotion.SnapIsNearestCentre | src/Player.ts:67-70 | the snap is the only tile centre in that window |
| PlayerMotion.SnapClosedForm | src/Player.ts:67-70 | on integers the snap is `floor((c + 32) / 32) * 32 - 16` |
| PlayerMotion.SnapIdempotent | src/Player.ts:113-121 | snapping a snapped coordinate changes nothing |
| PlayerMotion.StepFromCentre | src/Player.ts:131-132 | from a tile centre the key step is one tile for non-negative coordinates and zero for negative ones; the target stays on a centre |
| PlayerMotion.WalkGateNeverCloses | src/Player.ts:124-126 | no animation the player plays has a key starting with `player_walk` |
| PlayerMotion.StandFor | src/Player.ts:135-152 | a movement code selects the standing animation of its direction; any other number leaves the animation as it is |
| PlayerMotion.AnimComplete | src/Player.ts:78-95 | only the animation can change, and only after a walk animation; then, for a valid facing, it becomes standing in the current direction |
| PlayerMotion.AnimCompleteIsInert | src/Player.ts:78-95 | finishing any animation the player plays changes nothing |
| PlayerMotion.Befriend | src/Player.ts:101-111 | an attached companion that is not following starts to, where it stands and with its trail and waypoint kept, and the save records it, once it is within 32 pixels on both axes; in every other case player and save are untouched |
| PlayerMotion.BefriendIdempotent | src/Player.ts:101-111 | befriending acts at most once: a second pass over its result changes nothing |
| PlayerMotion.SnapAtRest | src/Player.ts:113-121 | at rest, position and target become the nearest tile centre |
| PlayerMotion.Press | src/Player.ts:156-186 | an accepted key sets target, facing and walk animation, and marks the save active with that direction as the last one; nothing else in the player or the save changes |
| PlayerMotion.TakeInput | src/Player.ts:155-187 | at most one axis moves; Up beats Down beats Left beats Right; a pressed key marks the save active with the new facing as last direction and changes nothing else in it; no key changes nothing; position, companion and the move flag are untouched |
| PlayerMotion.CompanionFrame | src/Player.ts:192-198 | only the companion changes, its presence and its following flag are kept |
| PlayerMotion.CompanionFrameTrail | src/Player.ts:192-198 | a following companion takes an on-grid target that differs from its newest waypoint as the new newest one; one that is not following keeps the end of its trail; an idle one with no trail stands facing the player |
| PlayerMotion.ArriveSnap | src/Player.ts:200-204 | closer than 4 pixels to the target, land on it; afterwards the player is on its target or at least 4 pixels from it |
| PlayerMotion.Update | src/Player.ts:100-205 | keys move the target only when the player stands on it and may move; after the frame the player is on its target or at least 4 pixels away |
| PlayerMotion.UpdateBefriends | src/Player.ts:100-111 | a frame that starts with the companion in befriending range leaves it following, and the save records it |
| PlayerMotion.UpdateRecordsTarget | src/Player.ts:189-198 | a following companion receives the frame's final target as its newest waypoint when that target lies on the sampling grid and differs from the current newest one; an idle companion with no trail turns to face the player |
| PlayerMotion.RestingFrameStaysOnCentres | src/Player.ts:113-187 | a frame starting at rest ends with position and target on tile centres, whatever keys are held |
| PlayerMotion.PressMovesOneTile | src/Player.ts:155-187 | from a resting centre at non-negative coordinates, a key moves the target exactly one tile along one axis and records the facing |
| PlayerMotion.NoInputUntilArrival | src/Player.ts:155 | after Up is accepted, no key is read again at any position short of the new target |
| PlayerMotion.Advance | src/Player.ts:189-190 | the body seeks its target: the target is kept, the distance never grows and shrinks whenever the reach is positive, and the body lands exactly when the target is within reach on both axes; the companion's body seeks its waypoint; nothing but positions changes |
| PlayerMotion.ArrivalReadsInputAgain | src/Player.ts:155-190 | once the body lands on its target, the next frame reads the keys again and Up moves the target one more tile |
| Patrol.FrameDirection | src/NPC.ts:45-62 | frames 0, 1 and 3 face Up, Right and Left; every other frame, named frames included, faces Down |
| Patrol.ModeOf | src/NPC.ts:73-74 | a bounds coordinate sum below 2 is stationary, exactly 1 also never turns, anything else patrols |
| Patrol.FirstZoneModes | src/scenes/GameScene1.ts:14-16 | the first zone's three NPCs are stationary-turning, patrolling and frozen |
| Patrol.NewNpc | src/NPC.ts:36-80 | a new NPC stands on its spawn point, unaware, with a move timer exactly when not stationary |
| Patrol.Neighbour | src/NPC.ts:118-132 | the candidate target is one tile away, straight ahead in the chosen direction, with no sideways offset |
| Patrol.ChangeDirection | src/NPC.ts:112-142 | frozen or sighting NPCs do nothing; otherwise the facing becomes the random pick, the target moves one tile exactly when that stays in the box, the walk animation starts only with that move, and the timer is rescheduled; nothing else about the NPC changes |
| Patrol.OnMoveTimer | src/NPC.ts:223-231 | the fired timer is spent; a new one is pending exactly when the NPC may turn and sees no one |
| Patrol.LineOfSight | src/NPC.ts:194-210 | the player is seen exactly when strictly ahead, at most three tiles ahead and at most 15 pixels to the side |
| Patrol.SightExample | src/NPC.ts:194-210 | facing down from (100, 100), (110, 150) and (100, 196) are seen, (120, 150) and (100, 197) are not |
| Patrol.SightEdges | src/NPC.ts:147-163 | a rising edge shows the text and cancels the timer; a falling edge hides it and reschedules; no edge changes nothing |
| Patrol.PreUpdate | src/NPC.ts:144-192 | the sight flag follows the line of sight; a sighted NPC keeps its position, target, animation and heading; an unaware one is headed at its target, and one on its target stands facing its direction |
| Patrol.Advance | src/NPC.ts:165-191 | an unaware body seeks its target: a body on its target stays, the distance never grows and shrinks whenever the reach is positive, landing exactly when within reach; a sighted body moves the full reach along its last heading, whatever its target; only the position changes |
| Patrol.AdvanceStaysInBox | src/NPC.ts:184-191 | an unaware body and its target inside the patrol box keep the body inside the box on the way |
| Patrol.SightedPatrolDriftsOutOfBox | src/NPC.ts:165-191 | an NPC walking to the bottom edge of its box that sees the player mid-step glides out of the box |
| Patrol.PreUpdateIdempotent | src/NPC.ts:144-192 | a second `preUpdate` for the same player position changes nothing |
| Patrol.PatrolStaysInBox | src/NPC.ts:134-138 | a target inside the box stays inside, whatever the timer picks |
| Patrol.StationaryTimerStartsAfterSighting | src/NPC.ts:77-79 | a stationary NPC has no timer when built and has one after the player enters and leaves its sight |
| ProximitySigns.WithShowing | src/interactive/sign.ts:60 | sets the flag of one kind of sign and leaves the other kind's flag alone |
| ProximitySigns.NewSign | src/interactive/sign.ts:14-51 | a new sign has its box and text hidden |
| ProximitySigns.ShowSignText | src/interactive/sign.ts:57-62 | box and text visible, sign activated, the kind's scene flag set, the other kind's kept |
| ProximitySigns.HideSignText | src/interactive/sign.ts:64-70 | box and text hidden, sign deactivated and not shown by click, the kind's scene flag cleared |
| ProximitySigns.CheckPlayerPosition | src/interactive/bigsign.ts:69-78 | the sign and its kind's flag show exactly when the player's bounds overlap the sign |
| ProximitySigns.CheckIdempotent | src/interactive/sign.ts:72-81 | checking again against the same bounds changes nothing |
| ProximitySigns.CheckAll | src/GameSceneBase.ts:140-148 | every sign shows exactly when it overlaps; the kind's flag is the last sign's overlap; no signs leave the flags alone |
| ProximitySigns.CheckAllIdempotent | src/GameSceneBase.ts:140-148 | re-running the sign loop against the same bounds changes nothing |
| ProximitySigns.LastSignWins | src/GameSceneBase.ts:140-142 | a first sign that overlaps and a last one that does not leave the scene showing no sign |
| SceneCoordinator.NewScene | src/GameSceneBase.ts:14-23 | a fresh scene has no player and no NPCs, and both exit guards are clear |
| SceneCoordinator.FindProperty | src/GameSceneBase.ts:88 | finds the value of the first property with the name, and nothing exactly when no property has it |
| SceneCoordinator.AddNpc | src/GameSceneBase.ts:255-257 | appends exactly the one NPC |
| SceneCoordinator.ClearNpcs | src/GameSceneBase.ts:262-266 | popping until empty leaves no NPC |
| SceneCoordinator.TransitionScene | src/GameSceneBase.ts:273-313 | a truthy target saves the facing and waits for the fade, changing nothing else; a falsy one only releases both guards; a truthy target with no player rejects the call's promise before anything changes, and the caller carries on |
| SceneCoordinator.FadeOutComplete | src/GameSceneBase.ts:281-312 | the save records past and current zone, NPCs are cleared, the target starts, both guards are released |
| SceneCoordinator.ExitOverlap | src/GameSceneBase.ts:83-90 | an exit registered before the player existed never fires; a set debounce ignores the overlap; a running fade only sets debounce; a missing target throws with both guards set; otherwise the transition starts |
| SceneCoordinator.OverlapStartsOneTransition | src/GameSceneBase.ts:83-90 | sustained overlap of an exit starts exactly one transition |
| SceneCoordinator.StaysPut | src/GameSceneBase.ts:84 | while debounce is set, no number of overlap calls changes anything |
| SceneCoordinator.UnarmedExitNeverFires | src/GameSceneBase.ts:83 | an exit whose overlap was bound to no player changes nothing, however long the player stands on it |
| SceneCoordinator.MissingTargetLocksExits | src/GameSceneBase.ts:86-88 | an exit without a target throws and leaves every exit of the scene dead |
| SceneCoordinator.NoPlayerLocksExits | src/GameSceneBase.ts:273-277 | reaching an exit with a target while the scene has no player leaves both guards set for good: no exit fires again and no fade completion releases them |
| SceneCoordinator.FalsyTargetReleasesGuards | src/GameSceneBase.ts:309-312 | an empty target leaves the scene exactly as it was before the overlap |
| SceneCoordinator.HandoffCompletes | src/GameSceneBase.ts:273-313 | overlap then fade completion: facing, past and current zone saved and nothing else in the save changed, NPCs cleared, target started, guards free |
| SceneCoordinator.LoadObject | src/GameSceneBase.ts:71-110 | signs and big signs are appended; an exit is registered, armed exactly when a spawn point was already taken, and clears debounce; a spawn point is taken exactly when it names the past zone or the save is inactive, at the saved position when inactive; an unreadable object changes nothing |
| SceneCoordinator.LoadObjects | src/GameSceneBase.ts:71-110 | signs, big signs and exit properties are the layer's, in layer order, after the earlier ones; exits after a taken spawn point are armed; without a taken spawn point player, save and arming are untouched; with an active save the last spawn point tagged with the past zone places the player |
| SceneCoordinator.LastSpawnFrom | src/GameSceneBase.ts:94-103 | finds the position of a spawn point with the tag that no later one shares, and nothing exactly when no spawn point has the tag |
| SceneCoordinator.LoadObjectsAppend | src/GameSceneBase.ts:71-110 | loading a layer split in two is loading the first part and then the second |
| SceneCoordinator.Create | src/GameSceneBase.ts:43-128 | throws exactly when the layer holds an object without its first property; the sign lists hold exactly the signs and big signs read before that, hidden, and the exits the exits read; the sign flags are reset; NPCs and the fade flag carry over; without a taken spawn point the old player stays and no exit is armed; with an active save the save is kept and the last matching spawn point read places the player |
| SceneCoordinator.ReadPart | src/GameSceneBase.ts:71-110 | the objects `create` gets through: the longest prefix of the layer without an object whose first property is missing |
| SceneCoordinator.UnreadableObjectAbortsLayer | src/GameSceneBase.ts:74 | an object without its first property makes `create` throw, leaving exactly what the objects before it built |
| SceneCoordinator.FreshGameSpawnsAtSavedPosition | src/GameSceneBase.ts:94-103 | with an inactive save the first spawn point places the player at the saved position and activates the save; a later spawn point read that is tagged with the past zone then moves the player there, the last one winning |
| SceneCoordinator.ReturnUsesMatchingSpawn | src/GameSceneBase.ts:94-103 | an active save uses the spawn tagged with the past zone and skips the others |
| SceneCoordinator.ExitBeforeSpawnIsDead | src/GameSceneBase.ts:83 | an exit listed before the spawn point is bound before this visit's player exists and never fires; listed after it, it is armed |
| SceneCoordinator.PreUpdateAll | src/GameSceneBase.ts:157-166 | every NPC updates its sight against the given player position, none moves its target |
| SceneCoordinator.PreUpdateTwice | src/GameSceneBase.ts:157-166 | of two `preUpdate` passes in one frame, the second decides what each NPC sees, and neither moves a body or a target |
| SceneCoordinator.Frame | src/GameSceneBase.ts:137-167 | the engine's update-list pass and the signs see the player where the frame started, and each sign shows exactly when it overlaps that position; the player and save are the player's step; the scene's own NPC pass sees where that step ended, and that decides what each NPC sees; no NPC moves; guards and exits are untouched; without a player the first entity visited throws |
| SceneCoordinator.GlimpseWithinOneFrame | src/NPC.ts:144-163 | an NPC that sees the player where a frame starts and not where the player's step ends shows and hides its text and schedules its next move within that frame |
| SceneCoordinator.Physics | src/Player.ts:189-190 | every body moves by its own physics step, the player's together with its companion's; only positions change; the player and every unaware NPC end no farther from their targets |
| SceneCoordinator.PhysicsKeepsPatrolsInBox | src/NPC.ts:184-191 | physics never carries an unaware patrolling NPC out of its box |
| SceneCoordinator.CameraOffset | src/GameSceneBase.ts:120-121 | a map smaller than the view is centred in it; a larger one gets no offset |

## Left out

- Rendering, text layout and sprite frames. This covers `createSign` and `setSignVisibility` in `Max.ts`, `initTextBox` and the text-box objects in `NPC.ts`, the sign text positions, and `makeAnimations`. Text boxes are modelled as visibility flags.
- Physics. `moveTo` sets a velocity that lasts until the body is reset. One engine step is modelled as a move of at most `reach` pixels per axis towards the target (`PlayerMotion.Advance`, `Companion.Advance`, `Patrol.Advance`, `SceneCoordinator.Physics`). Speeds, elapsed time and overshoot are not modelled; the reach stands in for them. Collisions with the world layer are not modelled either.
- `Patrol.Advance`: a sighted NPC's drift follows the per-axis signs of its last heading at the same per-axis reach. The true diagonal speed is not modelled, and neither are the world-layer collisions that could stop the drift.
- The order of the physics step relative to a frame is left to the caller: `Physics` and `Frame` are separate functions.
- The player's "at rest" test is the `resting` parameter, not a velocity.
- Timers and randomness. The NPC move timer is a pending flag. `OnMoveTimer` is its firing, with the random pick passed in.
- `saveData`: it writes to browser storage and is I/O.
- `collideSign`, in both sign files: nothing in the core calls it.
- `getPlayerGender`, `getPlayerName`, `getName`, `getCurrentScene`, `getIntroScene`, `getCreditsScene`, `getPastScene`, `getPosition`, `isActive`, `getDirection`, `isMaxFollowing`, `getLastDirection`, `getFollowing`, `getMax` and the scene's `Player` getter are the datatype fields themselves.
- The intro, credits, transition and zone subclass scenes and `main.ts` are not part of this model. The zone subclasses appear only as the NPC placements of the first zone.
- The `HighSchool` dialogue is never loaded by the code and is not modelled.
- The intro array is shared by every companion object. The model keeps it per companion, so a second companion object would see a full intro here.
- The fade-in is started but not awaited, so it has no effect on the handoff and is not modelled.
- The scene start is recorded as `started`. What the next zone then does is its own `create`.
- An exit's overlap collider registered before this visit's layer created a player is modelled as an exit that never reports. At that point `this.player` is undefined, or it is the previous visit's player, whose body belongs to the old physics world. What the engine does with such a collider beyond that is not modelled.
- `TransitionScene`: the rejected promise of a transition without a player is not surfaced as an error. The model shows only its effect: nothing changes.
- `SceneCoordinator.Frame`: each NPC sees the scene's current player. In the source each NPC keeps the player object it was built with; the two differ only if the player is replaced while NPCs are alive.
- `SceneCoordinator.Create`: the engine calls after the object layer are left out. These are adding the player to physics, which would throw when no spawn matched, the camera follow and the world collider.
- The player's bounds are taken as a 32×32 box centred on its position. The engine's own `getBounds` depends on the sprite's frame and origin.
- Positions are integers. Fractional positions in mid-step are not modelled. On integers "closer than one pixel" is equality.

=== FILE: companion.dfy ===
/** Max, the companion who trails the player along a recorded path of
    waypoints and speaks a short intro dialogue once it starts following. */
module Companion {
  import opened Grid

  /** Max's own tile width (half the map's), so waypoints are sampled on an
      8-pixel grid and arrival means "closer than 2 pixels". */
  const TileWidth := 16
  const SampleGrid := TileWidth / 2
  const ArrivalRadius := TileWidth / 8

  /** The module-level intro dialogue. */
  const IntroLines: seq<string> := [
    "Hi there! (Hit the spacebar to advance my text.)",
    "I'm going to follow you and tell you about myself along the way. Let's get out of this room and start exploring!"
  ]

  datatype MaxAnim = NoAnim | Walk(dir: Direction) | Stand(dir: Direction)

  /** `moving` is "the body has a seeking velocity" (set by `moveMax`, zeroed on
      arrival). `dialogLoaded` records that `dialogQueue` has become the shared
      intro array: from then on the two are one array, so reloading it does
      not refill it. `signShown` is "the dialogue box exists". */
  datatype Max = Max(
    pos: Pos,
    queue: seq<Pos>,
    targetPosition: Option<Pos>,
    moving: bool,
    following: bool,
    dialogLoaded: bool,
    dialogQueue: seq<string>,
    currentDialog: Option<string>,
    signShown: bool,
    spaceLatched: bool,
    anim: MaxAnim)

  function NewMax(pos: Pos): (r: Max)
    ensures r.pos == pos && r.queue == [] && r.targetPosition.None?
    ensures !r.following && !r.dialogLoaded && r.dialogQueue == [] && !r.signShown
  {
    Max(pos, [], None, false, false, false, [], None, false, false, NoAnim)
  }

  /** No two consecutive waypoints of the follow queue are the same point. */
  ghost predicate NoAdjacentDup(q: seq<Pos>) {
    forall i, j :: 0 <= i && j == i + 1 && j < |q| ==> q[i] != q[j]
  }

  /** A point on the half-tile sampling grid. */
  predicate OnSampleGrid(p: Pos) {
    p.x % SampleGrid == 0 && p.y % SampleGrid == 0
  }

  /** Facing chosen from a displacement: the strictly larger axis wins, and a
      tie (including no displacement at all) goes to the vertical axis. */
  function Facing(dx: int, dy: int): (r: Direction)
    ensures !IsVertical(r) <==> Abs(dx) > Abs(dy)
    ensures r == Right ==> dx > 0
    ensures r == Left ==> dx <= 0
    ensures r == Down ==> dy > 0
    ensures r == Up ==> dy <= 0
  {
    if Abs(dx) > Abs(dy) then
      (if dx > 0 then Right else Left)
    else
      (if dy > 0 then Down else Up)
  }

  /** Equal horizontal and vertical distances always face vertically. */
  lemma FacingTieIsVertical(dx: int, dy: int)
    requires Abs(dx) == Abs(dy)
    ensures Facing(dx, dy) == (if dy > 0 then Down else Up)
  {
  }

  /** `recordPlayerPosition`: while following, append a sampled point unless it
      repeats the tail. */
  function Record(m: Max, p: Pos): (r: Max)
    ensures !m.following ==> r == m
    ensures |m.queue| <= |r.queue| <= |m.queue| + 1
    ensures r.queue[..|m.queue|] == m.queue
    ensures |r.queue| == |m.queue| + 1 <==>
              m.following && OnSampleGrid(p) && (m.queue == [] || m.queue[|m.queue| - 1] != p)
    ensures |r.queue| == |m.queue| + 1 ==> r.queue[|m.queue|] == p
    ensures r.(queue := m.queue) == m
  {
    if !m.following then m
    else
      var differs := |m.queue| == 0 || m.queue[|m.queue| - 1].x != p.x || m.queue[|m.queue| - 1].y != p.y;
      JsRemZeroIff(p.x, SampleGrid);
      JsRemZeroIff(p.y, SampleGrid);
      if JsRem(p.x, SampleGrid) == 0 && JsRem(p.y, SampleGrid) == 0 && differs then
        m.(queue := m.queue + [p])
      else
        m
  }

  /** Recording keeps consecutive waypoints distinct. */
  lemma RecordKeepsNoAdjacentDup(m: Max, p: Pos)
    requires NoAdjacentDup(m.queue)
    ensures NoAdjacentDup(Record(m, p).queue)
  {
    var q, r := m.queue, Record(m, p).queue;
    if |r| == |q| + 1 {
      forall i, j | 0 <= i && j == i + 1 && j < |r|
        ensures r[i] != r[j]
      {
        if j < |q| {
          assert r[i] == q[i] && r[j] == q[j];
        } else {
          assert r[i] == q[|q| - 1] && r[j] == p;
        }
      }
    } else {
      assert r == q;
    }
  }

  /** Recording the same point twice in a row grows the queue by at most one. */
  lemma RecordTwiceGrowsOnce(m: Max, p: Pos)
    ensures |Record(Record(m, p), p).queue| <= |m.queue| + 1
  {
    var once := Record(m, p);
    if |once.queue| == |m.queue| + 1 {
      assert once.queue[|once.queue| - 1] == p;
    }
  }

  /** `updateSign`: drop the open dialogue box, then open the next line, if any. */
  function UpdateSign(m: Max): (r: Max)
    ensures |m.dialogQueue| > 0 ==>
              r.dialogQueue == m.dialogQueue[1..] && r.currentDialog == Some(m.dialogQueue[0]) && r.signShown
    ensures |m.dialogQueue| == 0 ==>
              r.dialogQueue == [] && r.currentDialog == m.currentDialog && !r.signShown
    ensures r.(dialogQueue := m.dialogQueue, currentDialog := m.currentDialog, signShown := m.signShown) == m
  {
    var closed := m.(signShown := false);
    if |closed.dialogQueue| > 0 then
      closed.(currentDialog := Some(closed.dialogQueue[0]), dialogQueue := closed.dialogQueue[1..], signShown := true)
    else
      closed
  }

  /** `setFollowing`: a change of value (and only a change) loads the intro
      dialogue and advances it once. Loading again after the first time is the
      same array, so it brings back no lines already shown. */
  function SetFollowing(m: Max, b: bool): (r: Max)
    ensures r.following == b
    ensures m.following == b ==> r == m
    ensures m.following != b && !m.dialogLoaded ==>
              r.dialogLoaded && r.currentDialog == Some(IntroLines[0]) && r.dialogQueue == IntroLines[1..]
    ensures m.following != b && m.dialogLoaded ==>
              r.dialogQueue == (if |m.dialogQueue| > 0 then m.dialogQueue[1..] else [])
    ensures r.queue == m.queue && r.pos == m.pos && r.targetPosition == m.targetPosition
  {
    var m1 :=
      if m.following != b then
        UpdateSign(m.(dialogQueue := if m.dialogLoaded then m.dialogQueue else IntroLines, dialogLoaded := true))
      else m;
    m1.(following := b)
  }

  /** Following is trigger-on-change: setting the same value twice loads nothing the second time. */
  lemma SetFollowingIdempotent(m: Max, b: bool)
    ensures SetFollowing(SetFollowing(m, b), b) == SetFollowing(m, b)
  {
  }

  /** Step 1 of `update`: when idle with more than one waypoint queued, take
      the front one as the target and walk facing it; when idle otherwise,
      stand facing the leader. */
  function PickWaypoint(m: Max, leader: Pos): (r: Max)
    ensures m.targetPosition.None? && |m.queue| > 1 ==>
              r.queue == m.queue[1..] && r.targetPosition == Some(m.queue[0]) && r.moving
              && r.anim == Walk(Facing(m.queue[0].x - m.pos.x, m.queue[0].y - m.pos.y))
    ensures !(m.targetPosition.None? && |m.queue| > 1) ==> r.queue == m.queue && r.targetPosition == m.targetPosition
    ensures m.targetPosition.None? && |m.queue| <= 1 ==>
              r.anim == Stand(Facing(leader.x - m.pos.x, leader.y - m.pos.y))
    ensures r.pos == m.pos && r.following == m.following && r.dialogQueue == m.dialogQueue
    ensures r.spaceLatched == m.spaceLatched
  {
    if m.targetPosition.None? && |m.queue| > 1 then
      var t := m.queue[0];
      m.(targetPosition := Some(t), queue := m.queue[1..], anim := Walk(Facing(t.x - m.pos.x, t.y - m.pos.y)), moving := true)
    else if m.targetPosition.None? then
      m.(anim := Stand(Facing(leader.x - m.pos.x, leader.y - m.pos.y)))
    else
      m
  }

  /** Step 2 of `update`: within two pixels of the target, land on it, stop and
      become idle. */
  function Arrive(m: Max): (r: Max)
    ensures m.targetPosition.Some? && DistSq(m.pos, m.targetPosition.value) < ArrivalRadius * ArrivalRadius ==>
              r.pos == m.targetPosition.value && !r.moving && r.targetPosition.None?
    ensures !(m.targetPosition.Some? && DistSq(m.pos, m.targetPosition.value) < ArrivalRadius * ArrivalRadius) ==> r == m
    ensures r.queue == m.queue && r.following == m.following && r.dialogQueue == m.dialogQueue
    ensures r.spaceLatched == m.spaceLatched
  {
    match m.targetPosition
    case Some(t) =>
      if DistSq(m.pos, t) < ArrivalRadius * ArrivalRadius then m.(pos := t, moving := false, targetPosition := None) else m
    case None => m
  }

  /** Step 3 of `update`: the spacebar advances the dialogue on a press edge
      only. A held key advances nothing more, releasing it re-arms the latch,
      and nothing but the dialogue and the latch changes. */
  function SpaceKey(m: Max, spaceDown: bool): (r: Max)
    ensures r.spaceLatched == spaceDown
    ensures r.(dialogQueue := m.dialogQueue, currentDialog := m.currentDialog, signShown := m.signShown,
               spaceLatched := m.spaceLatched) == m
    ensures !(spaceDown && !m.spaceLatched) ==>
              r.dialogQueue == m.dialogQueue && r.currentDialog == m.currentDialog && r.signShown == m.signShown
    ensures |r.dialogQueue| < |m.dialogQueue| <==> spaceDown && !m.spaceLatched && |m.dialogQueue| > 0
    ensures spaceDown && !m.spaceLatched && |m.dialogQueue| > 0 ==>
              r.currentDialog == Some(m.dialogQueue[0]) && r.dialogQueue == m.dialogQueue[1..] && r.signShown
  {
    if spaceDown && !m.spaceLatched then UpdateSign(m).(spaceLatched := true)
    else if !spaceDown then m.(spaceLatched := false)
    else m
  }

  /** `update`: one companion frame, given where the leader stands and whether
      the spacebar is held. */
  function Update(m: Max, leader: Pos, spaceDown: bool): (r: Max)
    ensures r.following == m.following
    ensures r.queue == m.queue || (m.targetPosition.None? && |m.queue| > 1 && r.queue == m.queue[1..])
    ensures m.targetPosition.None? && |m.queue| > 1 ==> r.queue == m.queue[1..]
    ensures m.targetPosition.None? && |m.queue| > 1 ==>
              (r.targetPosition == Some(m.queue[0]) && r.moving) || (r.targetPosition.None? && r.pos == m.queue[0])
    ensures |m.queue| > 0 ==> |r.queue| > 0
    ensures |m.dialogQueue| - 1 <= |r.dialogQueue| <= |m.dialogQueue|
    ensures r.spaceLatched == spaceDown
    ensures m.spaceLatched ==> r.dialogQueue == m.dialogQueue
    ensures |m.queue| > 0 ==> r.queue[|r.queue| - 1] == m.queue[|m.queue| - 1]
    ensures m.targetPosition.None? && |m.queue| <= 1 ==>
              r.anim == Stand(Facing(leader.x - m.pos.x, leader.y - m.pos.y))
  {
    SpaceKey(Arrive(PickWaypoint(m, leader)), spaceDown)
  }

  /** The engine's physics step for Max's body: it seeks the waypoint `moveMax`
      aimed it at, covering at most `reach` pixels per axis, and stays put when
      idle. Only the position changes. */
  function Advance(m: Max, reach: nat): (r: Max)
    ensures r.(pos := m.pos) == m
    ensures m.targetPosition.None? ==> r.pos == m.pos
    ensures m.targetPosition.Some? ==>
              DistSq(r.pos, m.targetPosition.value) <= DistSq(m.pos, m.targetPosition.value)
              && (r.pos == m.targetPosition.value <==>
                    Abs(m.targetPosition.value.x - m.pos.x) <= reach && Abs(m.targetPosition.value.y - m.pos.y) <= reach)
  {
    match m.targetPosition
    case Some(t) => m.(pos := StepToward(m.pos, t, reach))
    case None => m
  }

  /** Playback only removes the front, so it keeps waypoints distinct too. */
  lemma UpdateKeepsNoAdjacentDup(m: Max, leader: Pos, spaceDown: bool)
    requires NoAdjacentDup(m.queue)
    ensures NoAdjacentDup(Update(m, leader, spaceDown).queue)
  {
    var r := Update(m, leader, spaceDown).queue;
    if r != m.queue {
      forall i, j | 0 <= i && j == i + 1 && j < |r|
        ensures r[i] != r[j]
      {
        assert r[i] == m.queue[i + 1] && r[j] == m.queue[j + 1];
      }
    }
  }

  /** Holding the spacebar over two frames advances the dialogue at most once. */
  lemma HeldSpaceAdvancesOnce(m: Max, l1: Pos, l2: Pos)
    ensures |Update(Update(m, l1, true), l2, true).dialogQueue| >= |m.dialogQueue| - 1
  {
    var m1 := Update(m, l1, true);
    assert m1.spaceLatched;
  }

  /** Scenario: a fresh companion told to follow shows the first intro line;
      told again, nothing more is loaded. Once the intro is drained, toggling
      following off and on again shows nothing. */
  lemma IntroPlaysOnce(pos: Pos)
    ensures SetFollowing(NewMax(pos), true).currentDialog == Some(IntroLines[0])
    ensures SetFollowing(SetFollowing(NewMax(pos), true), true) == SetFollowing(NewMax(pos), true)
    ensures
      var drained := UpdateSign(SetFollowing(NewMax(pos), true));
      var again := SetFollowing(SetFollowing(drained, false), true);
      !again.signShown && again.dialogQueue == []
  {
    var shown := SetFollowing(NewMax(pos), true);
    assert shown.dialogQueue == IntroLines[1..];
    var drained := UpdateSign(shown);
    assert drained.dialogQueue == [];
  }
}

=== FILE: grid.dfy ===
/** Shared primitives of the movement core: integer pixel positions, the four
    facings with their two encodings, rectangles, and the two pieces of
    JavaScript arithmetic the game code leans on (`%` and `Math.round`). */
module Grid {

  datatype Option<+T> = None | Some(value: T)

  /** The four cardinal facings shared by the player, the companion and NPCs. */
  datatype Direction = Up | Down | Left | Right

  /** A position in integer pixels (Phaser's coordinates, y growing downwards). */
  datatype Pos = Pos(x: int, y: int)

  /** An axis-aligned rectangle given by its top-left corner and its size. */
  datatype Rect = Rect(x: int, y: int, width: int, height: int)

  function Abs(n: int): (r: nat)
    ensures r == n || r == -n
  {
    if n < 0 then -n else n
  }

  /** Squared Euclidean distance; `Distance.Between(a, b) < k` is `DistSq(a, b) < k * k`. */
  function DistSq(a: Pos, b: Pos): (r: nat)
    ensures r == 0 <==> a == b
  {
    (a.x - b.x) * (a.x - b.x) + (a.y - b.y) * (a.y - b.y)
  }

  /** In integer pixels "closer than one pixel" means "at the same point". */
  lemma CloserThanOneIsEqual(a: Pos, b: Pos)
    ensures DistSq(a, b) < 1 <==> a == b
  {
  }

  /** One coordinate moved towards `b` by at most `reach` pixels, never past it. */
  function Approach(a: int, b: int, reach: nat): (r: int)
    ensures Abs(r - a) <= reach
    ensures a <= b ==> a <= r <= b
    ensures b <= a ==> b <= r <= a
    ensures Abs(b - a) <= reach <==> r == b
    ensures reach > 0 && a != b ==> Abs(b - r) < Abs(b - a)
  {
    if a < b then (if b - a <= reach then b else a + reach)
    else if b < a then (if a - b <= reach then b else a - reach)
    else a
  }

  lemma SquareMono(u: int, v: int)
    requires Abs(u) <= Abs(v)
    ensures u * u <= v * v
    ensures Abs(u) < Abs(v) ==> u * u < v * v
  {
    var a, b := Abs(u), Abs(v);
    assert u * u == a * a && v * v == b * b;
    assert a * a <= a * b <= b * b;
    if a < b {
      assert a * a <= a * b < b * b;
    }
  }

  /** One engine step of a body seeking `t` (Phaser's `moveTo` followed by the
      physics update): each axis moves towards `t` by at most `reach` pixels. The
      body never ends up farther from its target, gets strictly closer whenever
      it can move at all, and lands on the target exactly when the target lies
      within reach on both axes. */
  function StepToward(p: Pos, t: Pos, reach: nat): (r: Pos)
    ensures Abs(r.x - p.x) <= reach && Abs(r.y - p.y) <= reach
    ensures DistSq(r, t) <= DistSq(p, t)
    ensures reach > 0 && p != t ==> DistSq(r, t) < DistSq(p, t)
    ensures r == t <==> Abs(t.x - p.x) <= reach && Abs(t.y - p.y) <= reach
  {
    var x := Approach(p.x, t.x, reach);
    var y := Approach(p.y, t.y, reach);
    SquareMono(x - t.x, p.x - t.x);
    SquareMono(y - t.y, p.y - t.y);
    Pos(x, y)
  }

  /** JavaScript's `a % b`: the remainder truncates towards zero, so it takes
      the sign of the dividend (Dafny's own `%` never goes negative). */
  function JsRem(a: int, b: int): (r: int)
    requires b > 0
    ensures a >= 0 ==> 0 <= r < b && a == b * (a / b) + r
    ensures a < 0 ==> -b < r <= 0 && a == b * -((-a) / b) + r
  {
    if a >= 0 then a % b else -((-a) % b)
  }

  /** Euclidean division is the only way to split `a` into a multiple of `b`
      and a remainder in `[0, b)`. */
  lemma DivModUnique(a: int, b: int, q: int, r: int)
    requires b > 0 && 0 <= r < b && a == b * q + r
    ensures a / b == q && a % b == r
  {
    var q', r' := a / b, a % b;
    assert a == b * q' + r';
    if q' < q {
      assert b * (q - q') >= b by { MulAtLeast(b, q - q'); }
      assert false;
    } else if q < q' {
      assert b * (q' - q) >= b by { MulAtLeast(b, q' - q); }
      assert false;
    }
  }

  lemma MulAtLeast(b: int, k: int)
    requires b > 0 && k >= 1
    ensures b * k >= b
  {
  }

  /** Divisibility tests agree between the two remainders. */
  lemma JsRemZeroIff(a: int, b: int)
    requires b > 0
    ensures JsRem(a, b) == 0 <==> a % b == 0
  {
    if a < 0 {
      if a % b == 0 {
        DivModUnique(-a, b, -(a / b), 0);
      }
      if (-a) % b == 0 {
        DivModUnique(a, b, -((-a) / b), 0);
      }
    }
  }

  /** `Math.round(n / d)` for integers: the nearest integer, halves rounded up. */
  function RoundDiv(n: int, d: int): (r: int)
    requires d > 0
    ensures 2 * d * r - d <= 2 * n < 2 * d * r + d
  {
    var q := (2 * n + d) / (2 * d);
    DivBounds(2 * n + d, 2 * d);
    q
  }

  /** Euclidean division brackets its dividend. */
  lemma DivBounds(a: int, b: int)
    requires b > 0
    ensures b * (a / b) <= a < b * (a / b) + b
  {
  }

  /** The numeric `MOVEMENT_DIRECTION` encoding used by the player and the save record. */
  function Code(d: Direction): (r: int)
    ensures 1 <= r <= 4
  {
    match d
    case Up => 1
    case Down => 2
    case Left => 3
    case Right => 4
  }

  /** Reads a stored direction number back; numbers outside 1..4 name no direction. */
  function FromCode(n: int): (r: Option<Direction>)
    ensures r.Some? <==> 1 <= n <= 4
    ensures r.Some? ==> Code(r.value) == n
  {
    if n == 1 then Some(Up)
    else if n == 2 then Some(Down)
    else if n == 3 then Some(Left)
    else if n == 4 then Some(Right)
    else None
  }

  lemma CodeRoundTrip(d: Direction)
    ensures FromCode(Code(d)) == Some(d)
  {
  }

  /** The string encoding used by NPCs (`NPC_DIRECTION`) and `setDirectionString`. */
  function Name(d: Direction): (r: string)
    ensures |r| >= 2
  {
    match d
    case Up => "Up"
    case Down => "Down"
    case Left => "Left"
    case Right => "Right"
  }

  predicate IsVertical(d: Direction) {
    d == Up || d == Down
  }

  predicate StartsWith(s: string, prefix: string) {
    |prefix| <= |s| && s[..|prefix|] == prefix
  }
}

=== FILE: npc.dfy ===
/** Patrol NPCs: random one-tile steps inside a bounding box on a timer, an
    axis-aligned line of sight towards the player, and a sighted/unaware
    state machine that pauses the patrol and shows the NPC's text. */
module Patrol {
  import opened Grid

  const TileWidth := 32
  /** How far ahead the NPC sees: three tiles. */
  const SightDistance := 3 * TileWidth
  /** How far to either side of its line of sight the NPC still sees. */
  const SightTolerance := 15

  /** The patrol box, inclusive on all four sides. Its coordinate sum doubles
      as the configuration of the NPC's mode (see `IsStationary`). */
  datatype Bounds = Bounds(minX: int, maxX: int, minY: int, maxY: int)

  /** A sprite frame is given either by number or by name. */
  datatype FrameId = FrameIndex(n: int) | FrameName(name: string)

  datatype NpcAnim = NoAnim | Walk(dir: Direction) | Stand(dir: Direction)

  /** `movePending` is "a move timer is scheduled"; `textShown` is the text box.
      `heading` is the direction of the body's velocity on each axis (-1, 0 or
      1): the one the last `moveTo` gave it, and zero after a reset. */
  datatype Npc = Npc(
    pos: Pos,
    target: Pos,
    direction: Direction,
    bounds: Bounds,
    inSight: bool,
    shouldResume: bool,
    movePending: bool,
    textShown: bool,
    anim: NpcAnim,
    heading: Pos)

  /** The initial facing encoded by the sprite frame: frames 0..3 are Up, Right,
      Down, Left; any other frame, named frames included, faces Down. */
  function FrameDirection(frame: FrameId): (r: Direction)
    ensures r == Up <==> frame == FrameIndex(0)
    ensures r == Right <==> frame == FrameIndex(1)
    ensures r == Left <==> frame == FrameIndex(3)
  {
    match frame
    case FrameIndex(n) =>
      if n == 0 then Up else if n == 1 then Right else if n == 2 then Down else if n == 3 then Left else Down
    case FrameName(_) => Down
  }

  function BoundsSum(b: Bounds): int {
    b.minX + b.minY + b.maxX + b.maxY
  }

  /** A coordinate sum below 2 marks a stationary NPC. */
  predicate IsStationary(b: Bounds) {
    BoundsSum(b) < 2
  }

  /** A coordinate sum of exactly 1 marks an NPC that never turns either. */
  predicate IsNonRotational(b: Bounds) {
    BoundsSum(b) == 1
  }

  /** The three configurations the encoding distinguishes. */
  datatype Mode = Patrolling | StationaryTurning | Frozen

  function ModeOf(b: Bounds): (r: Mode)
    ensures r == Frozen <==> IsNonRotational(b)
    ensures r == Patrolling <==> !IsStationary(b)
  {
    if !IsStationary(b) then Patrolling
    else if IsNonRotational(b) then Frozen
    else StationaryTurning
  }

  /** The three NPCs of the first zone cover the three modes. */
  lemma FirstZoneModes()
    ensures ModeOf(Bounds(0, 0, 0, 0)) == StationaryTurning
    ensures ModeOf(Bounds(1600, 1700, 1600, 1700)) == Patrolling
    ensures ModeOf(Bounds(0, 0, 0, 1)) == Frozen
  {
    assert BoundsSum(Bounds(0, 0, 0, 0)) == 0;
    assert BoundsSum(Bounds(1600, 1700, 1600, 1700)) == 6600;
    assert BoundsSum(Bounds(0, 0, 0, 1)) == 1;
  }

  /** The constructor: standing on its spawn point, unaware, and with a move
      timer scheduled exactly when it is not stationary. */
  function NewNpc(pos: Pos, frame: FrameId, bounds: Bounds): (r: Npc)
    ensures r.pos == pos && r.target == pos && r.direction == FrameDirection(frame)
    ensures !r.inSight && !r.textShown && !r.shouldResume && r.heading == Pos(0, 0)
    ensures r.movePending <==> !IsStationary(bounds)
    ensures IsNonRotational(bounds) ==> IsStationary(bounds)
  {
    Npc(pos, pos, FrameDirection(frame), bounds, false, false, !IsStationary(bounds), false, NoAnim, Pos(0, 0))
  }

  predicate InBox(p: Pos, b: Bounds) {
    b.minX <= p.x <= b.maxX && b.minY <= p.y <= b.maxY
  }

  /** One tile from `t` in direction `d`. */
  function Neighbour(t: Pos, d: Direction): (r: Pos)
    ensures Abs(r.x - t.x) + Abs(r.y - t.y) == TileWidth
    ensures IsVertical(d) <==> r.x == t.x
    ensures Ahead(t, d, r) == TileWidth && Aside(t, d, r) == 0
  {
    match d
    case Up => t.(y := t.y - TileWidth)
    case Down => t.(y := t.y + TileWidth)
    case Left => t.(x := t.x - TileWidth)
    case Right => t.(x := t.x + TileWidth)
  }

  /** `changeDirection`, with the random pick passed in as `choice`. Frozen
      NPCs and NPCs that see the player do nothing, not even reschedule;
      otherwise the facing is set to the pick, the target moves one tile only if
      the new target stays inside the box, and the timer is always rescheduled. */
  function ChangeDirection(n: Npc, choice: Direction): (r: Npc)
    ensures IsNonRotational(n.bounds) || n.inSight ==> r == n
    ensures !IsNonRotational(n.bounds) && !n.inSight ==>
              r.direction == choice && r.movePending
              && (r.target == n.target || (r.target == Neighbour(n.target, choice) && InBox(r.target, n.bounds)))
              && (InBox(Neighbour(n.target, choice), n.bounds) <==> r.target != n.target)
              && r.anim == (if r.target != n.target then Walk(choice) else n.anim)
    ensures r.(direction := n.direction, target := n.target, anim := n.anim, movePending := n.movePending) == n
  {
    if IsNonRotational(n.bounds) || n.inSight then n
    else
      var candidate := Neighbour(n.target, choice);
      var n1 := n.(direction := choice);
      var n2 := if InBox(candidate, n.bounds) then n1.(target := candidate, anim := Walk(choice)) else n1;
      n2.(movePending := true)
  }

  /** The move timer firing: the fired event is spent, then `changeDirection` runs. */
  function OnMoveTimer(n: Npc, choice: Direction): (r: Npc)
    ensures r.movePending <==> !IsNonRotational(n.bounds) && !n.inSight
    ensures r.target == n.target || InBox(r.target, n.bounds)
  {
    ChangeDirection(n.(movePending := false), choice)
  }

  /** How far `pl` lies ahead of `at` along `d`. */
  function Ahead(at: Pos, d: Direction, pl: Pos): int {
    match d
    case Up => at.y - pl.y
    case Down => pl.y - at.y
    case Left => at.x - pl.x
    case Right => pl.x - at.x
  }

  /** How far `pl` lies to the side of the line through `at` along `d`. */
  function Aside(at: Pos, d: Direction, pl: Pos): int {
    if IsVertical(d) then pl.x - at.x else pl.y - at.y
  }

  /** `lineOfSightIntersectsPlayer`: whether the player at `pl` is seen by an
      NPC at `at` facing `d`. Whatever the facing, the test is one cone:
      strictly ahead, at most three tiles ahead, at most 15 pixels aside. */
  function LineOfSight(at: Pos, d: Direction, pl: Pos): (r: bool)
    ensures r <==> 0 < Ahead(at, d, pl) <= SightDistance && Abs(Aside(at, d, pl)) <= SightTolerance
  {
    match d
    case Up => Abs(pl.x - at.x) <= SightTolerance && pl.y >= at.y - SightDistance && pl.y < at.y
    case Down => Abs(pl.x - at.x) <= SightTolerance && pl.y <= at.y + SightDistance && pl.y > at.y
    case Left => Abs(pl.y - at.y) <= SightTolerance && pl.x >= at.x - SightDistance && pl.x < at.x
    case Right => Abs(pl.y - at.y) <= SightTolerance && pl.x <= at.x + SightDistance && pl.x > at.x
  }

  /** The boundary example: an NPC at (100, 100) facing Down sees (110, 150)
      but not (120, 150). */
  lemma SightExample()
    ensures LineOfSight(Pos(100, 100), Down, Pos(110, 150))
    ensures !LineOfSight(Pos(100, 100), Down, Pos(120, 150))
    ensures LineOfSight(Pos(100, 100), Down, Pos(100, 196))
    ensures !LineOfSight(Pos(100, 100), Down, Pos(100, 197))
  {
  }

  /** The sighted/unaware edges: on a rising edge show the text and cancel the
      timer; on a falling edge hide the text and ask for the patrol to resume,
      which schedules a timer in the same call. */
  function SightEdges(n: Npc, seen: bool): (r: Npc)
    ensures r.inSight == seen
    ensures seen && !n.inSight && !n.shouldResume ==> r.textShown && !r.movePending
    ensures !seen && n.inSight ==> !r.textShown && r.movePending
    ensures seen == n.inSight && !n.shouldResume ==> r == n
    ensures !r.shouldResume
    ensures r.pos == n.pos && r.target == n.target && r.direction == n.direction && r.bounds == n.bounds
  {
    var n1 :=
      if seen && !n.inSight then n.(inSight := true, textShown := true, movePending := false)
      else if !seen && n.inSight then n.(inSight := false, textShown := false, shouldResume := true)
      else n;
    if n1.shouldResume then n1.(movePending := true, shouldResume := false) else n1
  }

  /** The per-axis direction, -1, 0 or 1, of a velocity aimed from `p` at `t`. */
  function Heading(p: Pos, t: Pos): (r: Pos)
    ensures -1 <= r.x <= 1 && -1 <= r.y <= 1
    ensures (r.x > 0 <==> t.x > p.x) && (r.x < 0 <==> t.x < p.x)
    ensures (r.y > 0 <==> t.y > p.y) && (r.y < 0 <==> t.y < p.y)
  {
    Pos(if t.x > p.x then 1 else if t.x < p.x then -1 else 0,
        if t.y > p.y then 1 else if t.y < p.y then -1 else 0)
  }

  /** `preUpdate`, given the player's position. A sighted NPC returns early,
      so the velocity of its last `moveTo` stays on; otherwise it stands facing
      its direction on its target or is aimed at the target, and lands on the
      target, its body reset, once closer than one pixel. */
  function PreUpdate(n: Npc, player: Pos): (r: Npc)
    ensures r.inSight == LineOfSight(n.pos, n.direction, player)
    ensures r.inSight ==> r.pos == n.pos && r.target == n.target && r.anim == n.anim && r.heading == n.heading
    ensures !r.inSight ==> r.heading == Heading(n.pos, n.target)
    ensures r.target == n.target && r.direction == n.direction && r.bounds == n.bounds
    ensures !r.inSight && n.pos == n.target ==> r.anim == Stand(n.direction)
    ensures r.pos == n.pos
  {
    var n1 := SightEdges(n, LineOfSight(n.pos, n.direction, player));
    if n1.inSight then n1
    else
      var n2 := if n1.target == n1.pos then n1.(anim := Stand(n1.direction)) else n1.(heading := Heading(n1.pos, n1.target));
      if DistSq(n2.pos, n2.target) < 1 then n2.(pos := n2.target, heading := Pos(0, 0)) else n2
  }

  /** The engine's physics step for the NPC's body, covering `reach` pixels
      per axis. An unaware NPC was aimed at its target by this frame's
      `moveTo`, so its body seeks the target and a body on its target stays
      there. A sighted NPC skipped the `moveTo` and the arrival snap: its body
      glides on along its last heading, whatever its target. Only the position
      changes. */
  function Advance(n: Npc, reach: nat): (r: Npc)
    ensures r.(pos := n.pos) == n
    ensures !n.inSight && n.pos == n.target ==> r.pos == n.pos
    ensures !n.inSight ==> DistSq(r.pos, n.target) <= DistSq(n.pos, n.target)
    ensures !n.inSight && reach > 0 && n.pos != n.target ==> DistSq(r.pos, n.target) < DistSq(n.pos, n.target)
    ensures !n.inSight ==> (r.pos == n.target <==> Abs(n.target.x - n.pos.x) <= reach && Abs(n.target.y - n.pos.y) <= reach)
    ensures n.inSight ==> r.pos.x - n.pos.x == reach * n.heading.x && r.pos.y - n.pos.y == reach * n.heading.y
  {
    if n.inSight then n.(pos := Pos(n.pos.x + reach * n.heading.x, n.pos.y + reach * n.heading.y))
    else n.(pos := StepToward(n.pos, n.target, reach))
  }

  /** An unaware body that starts inside the patrol box and seeks a target
      inside it never leaves the box on the way. */
  lemma AdvanceStaysInBox(n: Npc, reach: nat)
    requires !n.inSight
    requires InBox(n.pos, n.bounds) && InBox(n.target, n.bounds)
    ensures InBox(Advance(n, reach).pos, n.bounds)
  {
    var x := Approach(n.pos.x, n.target.x, reach);
    var y := Approach(n.pos.y, n.target.y, reach);
    assert Advance(n, reach).pos == Pos(x, y);
  }

  /** Running `preUpdate` twice for the same player position is the same as once. */
  lemma PreUpdateIdempotent(n: Npc, player: Pos)
    ensures PreUpdate(PreUpdate(n, player), player) == PreUpdate(n, player)
  {
    var r := PreUpdate(n, player);
    assert SightEdges(r, LineOfSight(r.pos, r.direction, player)) == r;
  }

  /** The patrol never leaves its box: a target inside the box stays inside
      whatever the timer picks and whatever the player does. */
  lemma PatrolStaysInBox(n: Npc, choice: Direction, player: Pos)
    requires InBox(n.target, n.bounds)
    ensures InBox(OnMoveTimer(n, choice).target, n.bounds)
    ensures InBox(PreUpdate(n, player).target, n.bounds)
  {
  }

  /** A stationary NPC gets no timer when built, but gets one the first time a
      player walks into and out of its sight. */
  lemma StationaryTimerStartsAfterSighting(pos: Pos, frame: FrameId, bounds: Bounds, seenAt: Pos, awayAt: Pos)
    requires IsStationary(bounds)
    requires LineOfSight(pos, FrameDirection(frame), seenAt)
    requires !LineOfSight(pos, FrameDirection(frame), awayAt)
    ensures !NewNpc(pos, frame, bounds).movePending
    ensures PreUpdate(PreUpdate(NewNpc(pos, frame, bounds), seenAt), awayAt).movePending
  {
  }

  /** A sighted NPC can leave its box. Walking Down to a target on the box's
      bottom edge with the player out of sight, it is aimed at the target;
      the player then steps into its sight mid-walk, `preUpdate` returns
      early, and the body glides past the target and out of the box. */
  lemma SightedPatrolDriftsOutOfBox()
    ensures var box := Bounds(0, 64, 0, 64);
            var n0 := Npc(Pos(32, 48), Pos(32, 64), Down, box, false, false, true, false, Walk(Down), Pos(0, 0));
            var n1 := Advance(PreUpdate(n0, Pos(32, 300)), 8);
            var n2 := PreUpdate(n1, Pos(32, 120));
            && InBox(n0.pos, box) && InBox(n1.pos, box) && InBox(n2.target, box)
            && !n1.inSight && n2.inSight
            && !InBox(Advance(n2, 16).pos, box)
  {
    var box := Bounds(0, 64, 0, 64);
    var n0 := Npc(Pos(32, 48), Pos(32, 64), Down, box, false, false, true, false, Walk(Down), Pos(0, 0));
    assert !LineOfSight(n0.pos, Down, Pos(32, 300));
    var m := PreUpdate(n0, Pos(32, 300));
    assert m.heading == Pos(0, 1) && m.target == Pos(32, 64);
    var n1 := Advance(m, 8);
    assert n1.pos == Pos(32, 56);
    assert LineOfSight(n1.pos, Down, Pos(32, 120));
  }
}

=== FILE: player.dfy ===
/** The player's grid controller: snapping to tile centres, turning arrow keys
    into one-tile movement targets, the arrival snap, and the companion it
    carries along. */
module PlayerMotion {
  import opened Grid
  import opened PlayerDataModel
  import Companion

  const TileWidth := 32
  const HalfTile := TileWidth / 2
  /** Arrival snap radius, `TILE_WIDTH / 8`. */
  const ArrivalRadius := TileWidth / 8
  /** Max starts following once both axis distances are below this. */
  const BefriendRange := 33
  /** The prefix the walk-animation gate tests for. */
  const WalkPrefix := "player_walk"

  datatype Keys = Keys(up: bool, down: bool, left: bool, right: bool, space: bool)

  /** The animations the player plays on itself. */
  datatype PlayerAnim = NoAnim | Walk(dir: Direction) | Stand(dir: Direction)

  /** `direction` holds a raw `MOVEMENT_DIRECTION` number: it is seeded from the
      save record, which stores numbers unchecked. */
  datatype Player = Player(
    pos: Pos,
    target: Pos,
    direction: int,
    anim: PlayerAnim,
    canMove: bool,
    max: Option<Companion.Max>)

  /** The player after a frame, together with the shared save record. */
  datatype PlayerStep = PlayerStep(player: Player, data: PlayerData)

  /** A coordinate at a tile centre. */
  predicate Aligned(c: int) {
    (c + HalfTile) % TileWidth == 0
  }

  /** The direction the constructor starts with: the saved one, unless it is
      missing or zero (falsy), in which case Up. */
  function InitialDirection(stored: Option<int>): (r: int)
    ensures r != 0
    ensures stored.Some? && stored.value != 0 ==> r == stored.value
    ensures (stored.None? || stored.value == 0) ==> r == Code(Up)
  {
    match stored
    case Some(n) => if n != 0 then n else Code(Up)
    case None => Code(Up)
  }

  function NewPlayer(pos: Pos, pd: PlayerData): (r: Player)
    ensures r.pos == pos && r.target == pos && r.canMove && r.max.None?
    ensures r.direction == InitialDirection(pd.direction)
  {
    Player(pos, pos, InitialDirection(pd.direction), NoAnim, true, None)
  }

  /** `setMax`: attach the companion and set its following flag. */
  function SetMax(p: Player, m: Companion.Max, following: bool): (r: Player)
    ensures r.max.Some? && r.max.value.following == following
    ensures r.max.value.queue == m.queue && r.max.value.pos == m.pos && r.max.value.targetPosition == m.targetPosition
    ensures m.following == following ==> r.max == Some(m)
    ensures r.(max := p.max) == p
  {
    p.(max := Some(Companion.SetFollowing(m, following)))
  }

  /** `snapToGrid`: the tile centre nearest to `c`, halves going up. */
  function SnapToGrid(c: int): (r: int)
    ensures Aligned(r)
    ensures -HalfTile < r - c <= HalfTile
  {
    var q := RoundDiv(c + HalfTile, TileWidth);
    DivModUnique(q * TileWidth, TileWidth, q, 0);
    q * TileWidth - HalfTile
  }

  /** Two tile centres in the same half-open window of one tile are the same. */
  lemma AlignedInWindowUnique(a: int, b: int, c: int)
    requires Aligned(a) && Aligned(b)
    requires -HalfTile < a - c <= HalfTile && -HalfTile < b - c <= HalfTile
    ensures a == b
  {
    DivBounds(a + HalfTile, TileWidth);
    DivBounds(b + HalfTile, TileWidth);
    var ka, kb := (a + HalfTile) / TileWidth, (b + HalfTile) / TileWidth;
    assert a + HalfTile == TileWidth * ka;
    assert b + HalfTile == TileWidth * kb;
  }

  /** The snap is the unique tile centre within half a tile (below-exclusive) of `c`. */
  lemma SnapIsNearestCentre(c: int, a: int)
    requires Aligned(a) && -HalfTile < a - c <= HalfTile
    ensures SnapToGrid(c) == a
  {
    AlignedInWindowUnique(SnapToGrid(c), a, c);
  }

  /** The closed form of the snap on integers. */
  lemma {:induction false} SnapClosedForm(c: int)
    ensures SnapToGrid(c) == ((c + TileWidth) / TileWidth) * TileWidth - HalfTile
  {
    var q := (c + TileWidth) / TileWidth;
    DivBounds(c + TileWidth, TileWidth);
    DivModUnique(q * TileWidth, TileWidth, q, 0);
    SnapIsNearestCentre(c, q * TileWidth - HalfTile);
  }

  /** Snapping an already snapped coordinate changes nothing. */
  lemma SnapIdempotent(c: int)
    ensures SnapToGrid(SnapToGrid(c)) == SnapToGrid(c)
  {
    SnapIsNearestCentre(SnapToGrid(c), SnapToGrid(c));
  }

  /** The distance a key press moves the target along one axis:
      `(mod === 0) ? TILE_WIDTH : TILE_WIDTH - |mod|` with `mod = t % TILE_WIDTH - TILE_WIDTH / 2`. */
  function StepLength(t: int): int
  {
    var m := JsRem(t, TileWidth) - HalfTile;
    if m == 0 then TileWidth else TileWidth - Abs(m)
  }

  /** From a tile centre the step is exactly one tile when the coordinate is
      non-negative, and nothing at all when it is negative (JavaScript's `%`
      is negative there). Either way the target stays on a tile centre. */
  lemma StepFromCentre(t: int)
    requires Aligned(t)
    ensures t >= 0 ==> StepLength(t) == TileWidth
    ensures t < 0 ==> StepLength(t) == 0
    ensures Aligned(t + StepLength(t)) && Aligned(t - StepLength(t))
  {
    DivBounds(t + HalfTile, TileWidth);
    var k := (t + HalfTile) / TileWidth;
    assert t == TileWidth * k - HalfTile;
    if t >= 0 {
      DivModUnique(t, TileWidth, k - 1, HalfTile);
    } else {
      DivModUnique(-t, TileWidth, -k, HalfTile);
    }
    DivModUnique(t + TileWidth + HalfTile, TileWidth, k + 1, 0);
    DivModUnique(t - TileWidth + HalfTile, TileWidth, k - 1, 0);
  }

  /** The key of an animation as the player plays it. */
  function AnimKey(a: PlayerAnim): string
    requires a != NoAnim
  {
    match a
    case Walk(Up) => "player_up"
    case Walk(Down) => "player_down"
    case Walk(Left) => "player_left"
    case Walk(Right) => "player_right"
    case Stand(Up) => "player_stand_up"
    case Stand(Down) => "player_stand_down"
    case Stand(Left) => "player_stand_left"
    case Stand(Right) => "player_stand_right"
  }

  /** The walk-animation gate: "the current animation's key starts with `player_walk`". */
  predicate CurrentAnimIsWalk(a: PlayerAnim) {
    a != NoAnim && StartsWith(AnimKey(a), WalkPrefix)
  }

  /** None of the keys the player plays starts with the gate's prefix, so the
      gate never holds input back and the animation-complete handler never
      switches to a standing animation. */
  lemma WalkGateNeverCloses(a: PlayerAnim)
    ensures !CurrentAnimIsWalk(a)
  {
    if a != NoAnim {
      var k := AnimKey(a);
      if |WalkPrefix| <= |k| {
        assert k[7] != WalkPrefix[7];
      }
    }
  }

  /** The standing animation for a direction number; other numbers play nothing. */
  function StandFor(direction: int, current: PlayerAnim): (r: PlayerAnim)
    ensures 1 <= direction <= 4 ==> r.Stand? && Code(r.dir) == direction
    ensures !(1 <= direction <= 4) ==> r == current
  {
    match FromCode(direction)
    case Some(d) => Stand(d)
    case None => current
  }

  /** `animComplete`: after a walk animation, stand in the current direction. */
  function AnimComplete(p: Player, finished: PlayerAnim): (r: Player)
    ensures r.(anim := p.anim) == p
    ensures r != p ==> CurrentAnimIsWalk(finished) && r.anim.Stand? && Code(r.anim.dir) == p.direction
    ensures CurrentAnimIsWalk(finished) && 1 <= p.direction <= 4 ==> r.anim.Stand? && Code(r.anim.dir) == p.direction
  {
    if CurrentAnimIsWalk(finished) then p.(anim := StandFor(p.direction, p.anim)) else p
  }

  /** As written, finishing any of the player's own animations changes nothing. */
  lemma AnimCompleteIsInert(p: Player, finished: PlayerAnim)
    ensures AnimComplete(p, finished) == p
  {
    WalkGateNeverCloses(finished);
  }

  /** An attached companion that is not following yet and is within 32 pixels
      of the player on both axes. */
  predicate CanBefriend(p: Player) {
    p.max.Some? && !p.max.value.following
    && Abs(p.pos.x - p.max.value.pos.x) < BefriendRange
    && Abs(p.pos.y - p.max.value.pos.y) < BefriendRange
  }

  /** Frame step 1: a companion in befriending range starts following, where
      it stands, and the save records it; in every other case nothing changes. */
  function Befriend(p: Player, pd: PlayerData): (r: PlayerStep)
    ensures CanBefriend(p) ==>
              && r.player.max.Some? && r.player.max.value.following
              && r.player.max.value.pos == p.max.value.pos
              && r.player.max.value.queue == p.max.value.queue
              && r.player.max.value.targetPosition == p.max.value.targetPosition
              && r.data == SetMaxFollowing(pd, true)
    ensures !CanBefriend(p) ==> r == PlayerStep(p, pd)
    ensures r.player.(max := p.max) == p && r.player.max.Some? == p.max.Some?
  {
    match p.max
    case Some(m) =>
      if !m.following && Abs(p.pos.x - m.pos.x) < BefriendRange && Abs(p.pos.y - m.pos.y) < BefriendRange then
        PlayerStep(p.(max := Some(Companion.SetFollowing(m, true))), SetMaxFollowing(pd, true))
      else PlayerStep(p, pd)
    case None => PlayerStep(p, pd)
  }

  /** Befriending is a one-shot: once the companion follows, a second pass
      changes nothing. */
  lemma BefriendIdempotent(p: Player, pd: PlayerData)
    ensures var b := Befriend(p, pd);
            Befriend(b.player, b.data) == b
  {
  }

  /** Frame step 2: with the body at rest, snap the position to the nearest tile
      centre and make it the target. */
  function SnapAtRest(p: Player): (r: Player)
    ensures Aligned(r.pos.x) && Aligned(r.pos.y) && r.target == r.pos
    ensures -HalfTile < r.pos.x - p.pos.x <= HalfTile && -HalfTile < r.pos.y - p.pos.y <= HalfTile
    ensures r.(pos := p.pos, target := p.target) == p
  {
    var x := SnapToGrid(p.pos.x);
    var y := SnapToGrid(p.pos.y);
    p.(pos := Pos(x, y), target := Pos(x, y))
  }

  /** An accepted key press: new target and facing, walk animation, and the
      save record marked active with the pressed direction. */
  function Press(s: PlayerStep, d: Direction, target: Pos): (r: PlayerStep)
    ensures r.player.target == target && r.player.direction == Code(d) && r.player.anim == Walk(d)
    ensures r.player.(target := s.player.target, direction := s.player.direction, anim := s.player.anim) == s.player
    ensures r.data.active && r.data.lastDirection == Some(Code(d))
    ensures r.data.(active := s.data.active, lastDirection := s.data.lastDirection) == s.data
  {
    PlayerStep(
      s.player.(target := target, direction := Code(d), anim := Walk(d)),
      SetLastDirection(SetActive(s.data, true), Code(d)))
  }

  /** The vertical keys, tried first; `local` is the frame's `directionLocal`. */
  function VerticalKeys(s: PlayerStep, keys: Keys, local: int): (PlayerStep, int)
  {
    var t := s.player.target;
    if keys.up && (local == 0 || local == Code(Up)) then
      (Press(s, Up, t.(y := t.y - StepLength(t.y))), Code(Up))
    else if keys.down && (local == 0 || local == Code(Down)) then
      (Press(s, Down, t.(y := t.y + StepLength(t.y))), Code(Down))
    else
      (s, local)
  }

  /** The horizontal keys, honoured only while `directionLocal` is unset or horizontal. */
  function HorizontalKeys(s: PlayerStep, keys: Keys, local: int): PlayerStep
  {
    var t := s.player.target;
    if keys.left && (local == 0 || local == Code(Left)) then
      Press(s, Left, t.(x := t.x - StepLength(t.x)))
    else if keys.right && (local == 0 || local == Code(Right)) then
      Press(s, Right, t.(x := t.x + StepLength(t.x)))
    else
      s
  }

  /** Frame step 4: read the arrow keys. At most one axis moves: a vertical
      key wins over a horizontal one, Up over Down and Left over Right. */
  function TakeInput(s: PlayerStep, keys: Keys): (r: PlayerStep)
    ensures r.player.target.x == s.player.target.x || r.player.target.y == s.player.target.y
    ensures keys.up ==>
              r.player.direction == Code(Up)
              && r.player.target == s.player.target.(y := s.player.target.y - StepLength(s.player.target.y))
    ensures !keys.up && keys.down ==>
              r.player.direction == Code(Down)
              && r.player.target == s.player.target.(y := s.player.target.y + StepLength(s.player.target.y))
    ensures !keys.up && !keys.down && keys.left ==>
              r.player.direction == Code(Left)
              && r.player.target == s.player.target.(x := s.player.target.x - StepLength(s.player.target.x))
    ensures !keys.up && !keys.down && !keys.left && keys.right ==>
              r.player.direction == Code(Right)
              && r.player.target == s.player.target.(x := s.player.target.x + StepLength(s.player.target.x))
    ensures (keys.up || keys.down || keys.left || keys.right) ==>
              r.data.active && r.data.lastDirection == Some(r.player.direction) && r.player.anim == Walk(FromCode(r.player.direction).value)
    ensures r.data.(active := s.data.active, lastDirection := s.data.lastDirection) == s.data
    ensures !(keys.up || keys.down || keys.left || keys.right) ==> r == s
    ensures r.player.pos == s.player.pos && r.player.max == s.player.max && r.player.canMove == s.player.canMove
  {
    var v := VerticalKeys(s, keys, 0);
    HorizontalKeys(v.0, keys, v.1)
  }

  /** Frame step 5: feed the target to the companion, then run its frame with
      the player's current position as the leader. */
  function CompanionFrame(p: Player, space: bool): (r: Player)
    ensures r.(max := p.max) == p && r.max.Some? == p.max.Some?
    ensures p.max.Some? ==> r.max.value.following == p.max.value.following
  {
    match p.max
    case Some(m) => p.(max := Some(Companion.Update(Companion.Record(m, p.target), p.pos, space)))
    case None => p
  }

  /** What the companion's frame does with the player's target: a following
      companion makes it the trail's newest waypoint whenever it is on the
      sampling grid and differs from the current newest one; a companion that
      does not follow leaves the trail's end alone; an idle companion with no
      trail turns to face the player where it stands. */
  lemma CompanionFrameTrail(p: Player, space: bool)
    requires p.max.Some?
    ensures var m, r := p.max.value, CompanionFrame(p, space).max.value;
            && (m.following && Companion.OnSampleGrid(p.target) && (m.queue == [] || m.queue[|m.queue| - 1] != p.target) ==>
                  |r.queue| > 0 && r.queue[|r.queue| - 1] == p.target)
            && (!m.following && |m.queue| > 0 ==> |r.queue| > 0 && r.queue[|r.queue| - 1] == m.queue[|m.queue| - 1])
            && (m.targetPosition.None? && m.queue == [] ==>
                  r.anim == Companion.Stand(Companion.Facing(p.pos.x - m.pos.x, p.pos.y - m.pos.y)))
  {
  }

  /** Frame step 6: closer than `TILE_WIDTH / 8` to the target, land on it. */
  function ArriveSnap(p: Player): (r: Player)
    ensures DistSq(p.pos, p.target) < ArrivalRadius * ArrivalRadius ==> r.pos == p.target
    ensures r.pos == p.pos || r.pos == p.target
    ensures r.pos == r.target || DistSq(r.pos, r.target) >= ArrivalRadius * ArrivalRadius
    ensures r.(pos := p.pos) == p
  {
    if DistSq(p.pos, p.target) < ArrivalRadius * ArrivalRadius then p.(pos := p.target) else p
  }

  /** The player after steps 1 and 2, the state the rest of the frame starts from. */
  function Prepared(p: Player, pd: PlayerData, resting: bool): PlayerStep
  {
    var b := Befriend(p, pd);
    if resting then PlayerStep(SnapAtRest(b.player), b.data) else b
  }

  /** Input is read only when the walk gate is open, the player stands on its
      target and movement is allowed. */
  predicate AcceptsInput(s: Player) {
    !CurrentAnimIsWalk(s.anim) && DistSq(s.pos, s.target) < 1 && s.canMove
  }

  /** `update`: one player frame. `resting` is "both velocity components are
      within 1e-2", reported by the physics engine. */
  function Update(p: Player, pd: PlayerData, keys: Keys, resting: bool): (r: PlayerStep)
    ensures var s := Prepared(p, pd, resting).player;
            AcceptsInput(s) || r.player.target == s.target
    ensures r.player.canMove == p.canMove
    ensures !CurrentAnimIsWalk(Prepared(p, pd, resting).player.anim) ==>
              r.player.pos == r.player.target || DistSq(r.player.pos, r.player.target) >= ArrivalRadius * ArrivalRadius
  {
    var s := Prepared(p, pd, resting);
    if CurrentAnimIsWalk(s.player.anim) then s
    else
      var idle := if s.player.target == s.player.pos then s.player.(anim := StandFor(s.player.direction, s.player.anim)) else s.player;
      var moved := if AcceptsInput(idle) then TakeInput(PlayerStep(idle, s.data), keys) else PlayerStep(idle, s.data);
      PlayerStep(ArriveSnap(CompanionFrame(moved.player, keys.space)), moved.data)
  }

  /** A frame that starts with the companion in befriending range leaves it
      following, and the save says so. */
  lemma UpdateBefriends(p: Player, pd: PlayerData, keys: Keys, resting: bool)
    requires CanBefriend(p)
    ensures var r := Update(p, pd, keys, resting);
            r.player.max.Some? && r.player.max.value.following && r.data.maxFollowing
  {
  }

  /** Step 5 of every frame hands the player's final target to a following
      companion: on the sampling grid and different from the trail's newest
      waypoint, it becomes the newest one; and an idle companion with no trail
      turns to face the player. */
  lemma UpdateRecordsTarget(p: Player, pd: PlayerData, keys: Keys, resting: bool)
    requires var m := Prepared(p, pd, resting).player.max; m.Some? && m.value.following
    ensures var s, r := Prepared(p, pd, resting).player, Update(p, pd, keys, resting).player;
            var m := s.max.value;
            && r.max.Some? && r.max.value.following
            && (Companion.OnSampleGrid(r.target) && (m.queue == [] || m.queue[|m.queue| - 1] != r.target) ==>
                  |r.max.value.queue| > 0 && r.max.value.queue[|r.max.value.queue| - 1] == r.target)
            && (m.targetPosition.None? && m.queue == [] ==>
                  r.max.value.anim == Companion.Stand(Companion.Facing(s.pos.x - m.pos.x, s.pos.y - m.pos.y)))
  {
    var s := Prepared(p, pd, resting);
    WalkGateNeverCloses(s.player.anim);
    var idle := if s.player.target == s.player.pos then s.player.(anim := StandFor(s.player.direction, s.player.anim)) else s.player;
    var moved := if AcceptsInput(idle) then TakeInput(PlayerStep(idle, s.data), keys) else PlayerStep(idle, s.data);
    CompanionFrameTrail(moved.player, keys.space);
  }

  /** Input taken from a target on tile centres leaves it on tile centres. */
  lemma TakeInputStaysOnCentres(s: PlayerStep, keys: Keys)
    requires Aligned(s.player.target.x) && Aligned(s.player.target.y)
    ensures Aligned(TakeInput(s, keys).player.target.x) && Aligned(TakeInput(s, keys).player.target.y)
  {
    StepFromCentre(s.player.target.x);
    StepFromCentre(s.player.target.y);
  }

  /** A body at rest on a tile centre stays there when the frame begins, with
      its target on the same centre. */
  lemma PreparedAtCentre(p: Player, pd: PlayerData)
    requires Aligned(p.pos.x) && Aligned(p.pos.y)
    ensures var s := Prepared(p, pd, true).player;
            s.pos == p.pos && s.target == p.pos && s.anim == p.anim
            && s.canMove == p.canMove && s.direction == p.direction
  {
    SnapIsNearestCentre(p.pos.x, p.pos.x);
    SnapIsNearestCentre(p.pos.y, p.pos.y);
  }

  /** A key pressed with the target on a non-negative tile centre moves the
      target one tile along one axis, onto another centre. */
  lemma PressFromCentre(s: PlayerStep, keys: Keys)
    requires Aligned(s.player.target.x) && Aligned(s.player.target.y)
    requires s.player.target.x >= 0 && s.player.target.y >= 0
    requires keys.up || keys.down || keys.left || keys.right
    ensures var r := TakeInput(s, keys).player; var t := s.player.target;
            && Abs(r.target.x - t.x) + Abs(r.target.y - t.y) == TileWidth
            && Aligned(r.target.x) && Aligned(r.target.y)
            && FromCode(r.direction).Some?
            && DistSq(t, r.target) == TileWidth * TileWidth
  {
    var t := s.player.target;
    StepFromCentre(t.x);
    StepFromCentre(t.y);
    var r := TakeInput(s, keys).player;
    assert (r.target.x - t.x == 0 && Abs(r.target.y - t.y) == TileWidth) || (r.target.y - t.y == 0 && Abs(r.target.x - t.x) == TileWidth);
  }

  /** The end of a frame (companion, then arrival snap) keeps the target, the
      facing and the movement switch, and either leaves the body where it is
      or lands it on the target. */
  lemma FrameTail(q: Player, space: bool)
    ensures var r := ArriveSnap(CompanionFrame(q, space));
            r.target == q.target && r.direction == q.direction && r.canMove == q.canMove
            && (r.pos == q.pos || r.pos == q.target)
  {
  }

  /** A frame that accepts input ends with the target, facing and save record
      the input produced, and the body either where it was or on the target. */
  lemma UpdateTakesInput(p: Player, pd: PlayerData, keys: Keys, resting: bool)
    requires var s := Prepared(p, pd, resting).player;
             !CurrentAnimIsWalk(s.anim) && s.pos == s.target && AcceptsInput(s.(anim := StandFor(s.direction, s.anim)))
    ensures var s := Prepared(p, pd, resting);
            var m := TakeInput(PlayerStep(s.player.(anim := StandFor(s.player.direction, s.player.anim)), s.data), keys);
            var r := Update(p, pd, keys, resting);
            && r.data == m.data && r.player.target == m.player.target && r.player.direction == m.player.direction
            && (r.player.pos == s.player.pos || r.player.pos == m.player.target)
            && (DistSq(s.player.pos, m.player.target) >= ArrivalRadius * ArrivalRadius ==> r.player.pos == s.player.pos)
  {
    var s := Prepared(p, pd, resting);
    var m := TakeInput(PlayerStep(s.player.(anim := StandFor(s.player.direction, s.player.anim)), s.data), keys);
    FrameTail(m.player, keys.space);
  }

  /** A frame that starts with the body at rest ends with the player and its
      target on tile centres, whatever keys are held. */
  lemma RestingFrameStaysOnCentres(p: Player, pd: PlayerData, keys: Keys)
    ensures var r := Update(p, pd, keys, true).player;
            Aligned(r.pos.x) && Aligned(r.pos.y) && Aligned(r.target.x) && Aligned(r.target.y)
  {
    var s := Prepared(p, pd, true);
    if !CurrentAnimIsWalk(s.player.anim) {
      var idle := if s.player.target == s.player.pos then s.player.(anim := StandFor(s.player.direction, s.player.anim)) else s.player;
      TakeInputStaysOnCentres(PlayerStep(idle, s.data), keys);
      var moved := if AcceptsInput(idle) then TakeInput(PlayerStep(idle, s.data), keys) else PlayerStep(idle, s.data);
      FrameTail(moved.player, keys.space);
    }
  }

  /** A frame that starts at rest on a tile centre, with movement allowed and
      no walk playing, reads the keys. */
  lemma RestingFrameAccepts(p: Player, pd: PlayerData)
    requires Aligned(p.pos.x) && Aligned(p.pos.y)
    requires p.canMove && !CurrentAnimIsWalk(p.anim)
    ensures var s := Prepared(p, pd, true).player;
            && !CurrentAnimIsWalk(s.anim) && s.pos == s.target && s.target == p.pos
            && AcceptsInput(s.(anim := StandFor(s.direction, s.anim)))
  {
    PreparedAtCentre(p, pd);
    var s := Prepared(p, pd, true).player;
    WalkGateNeverCloses(StandFor(s.direction, s.anim));
  }

  /** The target, facing and record a resting, centred frame ends with when
      a key is held. */
  lemma PressedTarget(p: Player, pd: PlayerData, keys: Keys)
    requires Aligned(p.pos.x) && Aligned(p.pos.y) && p.pos.x >= 0 && p.pos.y >= 0
    requires p.canMove && !CurrentAnimIsWalk(p.anim)
    requires keys.up || keys.down || keys.left || keys.right
    ensures var r := Update(p, pd, keys, true);
            && Abs(r.player.target.x - p.pos.x) + Abs(r.player.target.y - p.pos.y) == TileWidth
            && Aligned(r.player.target.x) && Aligned(r.player.target.y)
            && FromCode(r.player.direction).Some?
  {
    var s := Prepared(p, pd, true);
    var idle := s.player.(anim := StandFor(s.player.direction, s.player.anim));
    RestingFrameAccepts(p, pd);
    PressFromCentre(PlayerStep(idle, s.data), keys);
    UpdateTakesInput(p, pd, keys, true);
  }

  /** A resting, centred frame with a key held leaves the body where it was
      and records the press. */
  lemma PressedBody(p: Player, pd: PlayerData, keys: Keys)
    requires Aligned(p.pos.x) && Aligned(p.pos.y) && p.pos.x >= 0 && p.pos.y >= 0
    requires p.canMove && !CurrentAnimIsWalk(p.anim)
    requires keys.up || keys.down || keys.left || keys.right
    ensures var r := Update(p, pd, keys, true);
            && r.player.pos == p.pos
            && r.data.lastDirection == Some(r.player.direction) && r.data.active
  {
    var s := Prepared(p, pd, true);
    var idle := s.player.(anim := StandFor(s.player.direction, s.player.anim));
    RestingFrameAccepts(p, pd);
    PressFromCentre(PlayerStep(idle, s.data), keys);
    UpdateTakesInput(p, pd, keys, true);
  }

  /** From a resting, centred, non-negative position, one arrow key moves the
      target exactly one tile along exactly one axis, onto another tile centre,
      with the facing and the save record following the pressed key. */
  lemma {:induction false} PressMovesOneTile(p: Player, pd: PlayerData, keys: Keys)
    requires Aligned(p.pos.x) && Aligned(p.pos.y) && p.pos.x >= 0 && p.pos.y >= 0
    requires p.canMove && !CurrentAnimIsWalk(p.anim)
    requires keys.up || keys.down || keys.left || keys.right
    ensures var r := Update(p, pd, keys, true);
            && Abs(r.player.target.x - p.pos.x) + Abs(r.player.target.y - p.pos.y) == TileWidth
            && (r.player.target.x == p.pos.x || r.player.target.y == p.pos.y)
            && Aligned(r.player.target.x) && Aligned(r.player.target.y)
            && r.player.pos == p.pos
            && FromCode(r.player.direction).Some?
            && r.data.lastDirection == Some(r.player.direction) && r.data.active
  {
    PressedTarget(p, pd, keys);
    PressedBody(p, pd, keys);
  }

  /** The engine's physics step between two frames: the player's body seeks its
      target (the `moveTo` of every frame) and the companion's body its current
      waypoint, each covering at most its reach per axis. Only positions change. */
  function Advance(p: Player, reach: nat, companionReach: nat): (r: Player)
    ensures r.target == p.target
    ensures DistSq(r.pos, r.target) <= DistSq(p.pos, p.target)
    ensures reach > 0 && p.pos != p.target ==> DistSq(r.pos, r.target) < DistSq(p.pos, p.target)
    ensures r.pos == p.target <==> Abs(p.target.x - p.pos.x) <= reach && Abs(p.target.y - p.pos.y) <= reach
    ensures r.(pos := p.pos, max := p.max) == p && r.max.Some? == p.max.Some?
    ensures p.max.Some? ==> r.max == Some(Companion.Advance(p.max.value, companionReach))
  {
    var moved := p.(pos := StepToward(p.pos, p.target, reach));
    match p.max
    case Some(m) => moved.(max := Some(Companion.Advance(m, companionReach)))
    case None => moved
  }

  /** Scenario: after Up is accepted, no key is read again at any position short
      of the new target, for as long as the body is moving. */
  lemma NoInputUntilArrival(p: Player, pd: PlayerData, keys1: Keys, keys2: Keys, q: Pos)
    requires Aligned(p.pos.x) && Aligned(p.pos.y) && p.pos.x >= 0 && p.pos.y >= 0
    requires p.canMove && !CurrentAnimIsWalk(p.anim) && keys1.up
    ensures var r1 := Update(p, pd, keys1, true);
            && r1.player.target == p.pos.(y := p.pos.y - TileWidth) && r1.player.direction == Code(Up)
            && (q != r1.player.target ==>
                  Update(r1.player.(pos := q), r1.data, keys2, false).player.target == r1.player.target)
  {
    PressMovesOneTile(p, pd, keys1);
    SnapIsNearestCentre(p.pos.x, p.pos.x);
    SnapIsNearestCentre(p.pos.y, p.pos.y);
    StepFromCentre(p.pos.y);
  }

  /** Once the physics step brings the body onto its target, the next frame
      reads the keys again: from a non-negative tile centre, Up moves the
      target one more tile. */
  lemma {:induction false} ArrivalReadsInputAgain(p: Player, pd: PlayerData, keys: Keys, reach: nat, companionReach: nat)
    requires p.canMove && keys.up
    requires Aligned(p.target.x) && Aligned(p.target.y) && p.target.y >= 0
    requires Abs(p.target.x - p.pos.x) <= reach && Abs(p.target.y - p.pos.y) <= reach
    ensures Advance(p, reach, companionReach).pos == p.target
    ensures Update(Advance(p, reach, companionReach), pd, keys, false).player.target == p.target.(y := p.target.y - TileWidth)
  {
    var a := Advance(p, reach, companionReach);
    var s := Prepared(a, pd, false).player;
    assert s.pos == p.target && s.target == p.target;
    var idle := s.(anim := StandFor(s.direction, s.anim));
    WalkGateNeverCloses(idle.anim);
    assert AcceptsInput(idle);
    StepFromCentre(p.target.y);
  }
}

=== FILE: player_data.dfy ===
/** The persisted player record: a flat bag of fields handed from zone to zone.
    Each getter of the source is the datatype field of the same name. */
module PlayerDataModel {
  import opened Grid

  /** `direction` and `lastDirection` are both absent in a fresh save and are
      stored without validation once set, so each is an optional raw number.
      `lastDirection` is written only by the player's movement step, and
      `direction` only when leaving a zone. */
  datatype PlayerData = PlayerData(
    gender: bool,
    name: string,
    currentScene: string,
    intro: string,
    credits: string,
    pastScene: string,
    position: Pos,
    active: bool,
    direction: Option<int>,
    maxFollowing: bool,
    lastDirection: Option<int>)

  /** `setPlayerGender`: true for a boy, false for a girl. */
  function SetPlayerGender(pd: PlayerData, gender: bool): (r: PlayerData)
    ensures r.gender == gender
    ensures r.(gender := pd.gender) == pd
  {
    pd.(gender := gender)
  }

  /** `setPlayerName`; both `getPlayerName` and `getName` read this field. */
  function SetPlayerName(pd: PlayerData, name: string): (r: PlayerData)
    ensures r.name == name
    ensures r.(name := pd.name) == pd
  {
    pd.(name := name)
  }

  function SetIntroScene(pd: PlayerData, scene: string): (r: PlayerData)
    ensures r.intro == scene
    ensures r.(intro := pd.intro) == pd
  {
    pd.(intro := scene)
  }

  function SetCreditsScene(pd: PlayerData, scene: string): (r: PlayerData)
    ensures r.credits == scene
    ensures r.(credits := pd.credits) == pd
  {
    pd.(credits := scene)
  }

  function SetCurrentScene(pd: PlayerData, scene: string): (r: PlayerData)
    ensures r.currentScene == scene
    ensures r.(currentScene := pd.currentScene) == pd
  {
    pd.(currentScene := scene)
  }

  function SetPastScene(pd: PlayerData, scene: string): (r: PlayerData)
    ensures r.pastScene == scene
    ensures r.(pastScene := pd.pastScene) == pd
  {
    pd.(pastScene := scene)
  }

  function SetActive(pd: PlayerData, active: bool): (r: PlayerData)
    ensures r.active == active
    ensures r.(active := pd.active) == pd
  {
    pd.(active := active)
  }

  function SetMaxFollowing(pd: PlayerData, following: bool): (r: PlayerData)
    ensures r.maxFollowing == following
    ensures r.(maxFollowing := pd.maxFollowing) == pd
  {
    pd.(maxFollowing := following)
  }

  /** Writes `lastDirection` only; the `direction` read back by `getDirection` is untouched. */
  function SetLastDirection(pd: PlayerData, direction: int): (r: PlayerData)
    ensures r.lastDirection == Some(direction)
    ensures r.direction == pd.direction
    ensures r.(lastDirection := pd.lastDirection) == pd
  {
    pd.(lastDirection := Some(direction))
  }

  /** Only the two coordinates of the saved position change. */
  function SetPosition(pd: PlayerData, x: int, y: int): (r: PlayerData)
    ensures r.position == Pos(x, y)
    ensures r.(position := pd.position) == pd
  {
    pd.(position := pd.position.(x := x).(y := y))
  }

  /** Stores any number as the direction, valid code or not. */
  function SetDirectionInteger(pd: PlayerData, direction: int): (r: PlayerData)
    ensures r.direction == Some(direction)
    ensures r.(direction := pd.direction) == pd
  {
    pd.(direction := Some(direction))
  }

  /** The number `setDirectionString` stores for a direction name. */
  function DirectionNumber(s: string): int
  {
    if s == "Up" then 1
    else if s == "Down" then 2
    else if s == "Left" then 3
    else if s == "Right" then 4
    else 1
  }

  /** A direction name is stored as its movement code; any other string as Up's code. */
  function SetDirectionString(pd: PlayerData, s: string): (r: PlayerData)
    ensures r.direction.Some? && FromCode(r.direction.value).Some?
    ensures forall d :: s == Name(d) ==> r.direction == Some(Code(d))
    ensures (forall d :: s != Name(d)) ==> r.direction == Some(Code(Up))
    ensures r.(direction := pd.direction) == pd
  {
    NameNumber();
    pd.(direction := Some(DirectionNumber(s)))
  }

  /** Each direction's name maps to its movement code. */
  lemma NameNumber()
    ensures forall d :: DirectionNumber(Name(d)) == Code(d)
  {
    forall d
      ensures DirectionNumber(Name(d)) == Code(d)
    {
      match d
      case Up =>
      case Down => assert Name(d)[0] != "Up"[0];
      case Left => assert Name(d)[0] != "Up"[0] && Name(d)[0] != "Down"[0];
      case Right => assert Name(d)[0] != "Up"[0] && Name(d)[0] != "Down"[0] && Name(d)[0] != "Left"[0];
    }
  }

  /** The string and numeric encodings agree: naming a direction and reading the
      stored number back through the movement code yields that direction. */
  lemma DirectionStringRoundTrip(pd: PlayerData, d: Direction)
    ensures FromCode(SetDirectionString(pd, Name(d)).direction.value) == Some(d)
  {
    CodeRoundTrip(d);
  }

  /** `setDirectionInteger` then `getDirection` gives the number back, even one
      that is not a movement code. */
  lemma DirectionIntegerRoundTrip(pd: PlayerData, n: int)
    ensures SetDirectionInteger(pd, n).direction.value == n
    ensures SetLastDirection(pd, n).direction == pd.direction
  {
  }

  /** The zone handoff writes the past scene and then the current scene; the
      two fields are independent, so the order does not matter, and a second
      write of a field overrides the first. */
  lemma SceneSettersIndependent(pd: PlayerData, past: string, current: string, later: string)
    ensures SetCurrentScene(SetPastScene(pd, past), current) == SetPastScene(SetCurrentScene(pd, current), past)
    ensures SetCurrentScene(SetCurrentScene(pd, current), later) == SetCurrentScene(pd, later)
    ensures SetCurrentScene(SetPastScene(pd, pd.currentScene), current).pastScene == pd.currentScene
  {
  }
}

=== FILE: scene.dfy ===
/** The zone scene: building its entities from the level's object layer,
    the per-frame update order, and the debounced exit handoff to the next
    zone with its camera fade. */
module SceneCoordinator {
  import opened Grid
  import opened PlayerDataModel
  import opened ProximitySigns
  import PlayerMotion
  import Patrol

  const TileWidth := 32
  const MapMaxWidth := 800
  const MapMaxHeight := 600

  /** A key/value entry of a level object's property list. */
  datatype Property = Property(name: string, value: string)

  /** The placement records of the level's object layer. The loader reads the
      first property of every sign, big sign and spawn point (a sign's text, a
      spawn point's zone of entry); `PropertylessObject` is one of those three
      whose property list is empty, so reading it throws a TypeError. */
  datatype LevelObject =
    | SignObject(zone: Rect)
    | ExitObject(properties: seq<Property>)
    | SpawnObject(pos: Pos, fromScene: string)
    | BigSignObject(zone: Rect)
    | PropertylessObject
    | OtherObject

  /** An exit zone and its overlap registration. The overlap is registered
      with the player object the scene holds when the exit is loaded; it is
      `armed` when that is the player this visit's layer created. Registered
      with no player, or with the sprite of an earlier visit, it never reports. */
  datatype Exit = Exit(properties: seq<Property>, armed: bool)

  /** One scene instance. `spawned` is "a spawn point of the layer being
      loaded has created the player"; `awaitingFade` is the target of a
      transition whose fade-out has been started and not yet reported complete;
      `started` is the zone this scene handed control to, if it has. */
  datatype Scene = Scene(
    data: PlayerData,
    player: Option<PlayerMotion.Player>,
    spawned: bool,
    npcs: seq<Patrol.Npc>,
    signs: seq<Sign>,
    bigSigns: seq<Sign>,
    exits: seq<Exit>,
    flags: SceneFlags,
    isFading: bool,
    debounce: bool,
    awaitingFade: Option<string>,
    started: Option<string>)

  /** The result of a callback: it returned normally, or it threw a
      TypeError, leaving the state it had reached. */
  datatype Outcome = Handled(scene: Scene) | Threw(scene: Scene)

  /** A fresh scene object, before its first `create`. */
  function NewScene(pd: PlayerData): (r: Scene)
    ensures r.npcs == [] && !r.isFading && !r.debounce && r.awaitingFade.None? && r.player.None? && !r.spawned
  {
    Scene(pd, None, false, [], [], [], [], SceneFlags(false, false), false, false, None, None)
  }

  /** A transition in flight always holds both guard flags. */
  predicate Consistent(s: Scene) {
    s.awaitingFade.Some? ==> s.isFading && s.debounce
  }

  /** JavaScript truthiness of a string. */
  predicate Truthy(v: string) {
    v != ""
  }

  /** `properties.find(p => p.name === name)`: the first property with that name. */
  function FindProperty(props: seq<Property>, name: string): (r: Option<string>)
    ensures r.None? <==> forall i :: 0 <= i < |props| ==> props[i].name != name
    ensures r.Some? ==> exists i :: 0 <= i < |props| && props[i].name == name && props[i].value == r.value
                                   && forall j :: 0 <= j < i ==> props[j].name != name
    decreases |props|
  {
    if |props| == 0 then None
    else if props[0].name == name then Some(props[0].value)
    else
      var r := FindProperty(props[1..], name);
      if r.Some? then
        var i :| 0 <= i < |props| - 1 && props[1..][i].name == name && props[1..][i].value == r.value
                  && forall j :: 0 <= j < i ==> props[1..][j].name != name;
        assert props[i + 1].name == name;
        r
      else r
  }

  /** `addNPC`: exactly one NPC more, at the end. */
  function AddNpc(npcs: seq<Patrol.Npc>, n: Patrol.Npc): (r: seq<Patrol.Npc>)
    ensures |r| == |npcs| + 1 && r[..|npcs|] == npcs && r[|npcs|] == n
  {
    npcs + [n]
  }

  /** `clearNPCs`: pop until the list is empty. */
  function ClearNpcs(npcs: seq<Patrol.Npc>): (r: seq<Patrol.Npc>)
    ensures r == []
    decreases |npcs|
  {
    if |npcs| == 0 then npcs else ClearNpcs(npcs[..|npcs| - 1])
  }

  /** The synchronous part of `transitionScene`, up to its first `await`. With
      a truthy target it saves the player's facing, starts the fade-out and
      waits for it; with a falsy one it only resets both guards. The function
      is `async`: reading the facing of a scene with no player rejects its
      promise, which nobody awaits, so the caller returns normally with nothing
      changed, no fade started and the guards left as they were. */
  function TransitionScene(s: Scene, target: string): (r: Outcome)
    ensures r.Handled?
    ensures !Truthy(target) ==> r.scene == s.(isFading := false, debounce := false)
    ensures Truthy(target) && s.player.None? ==> r.scene == s
    ensures Truthy(target) && s.player.Some? ==>
              r.scene.awaitingFade == Some(target)
              && r.scene.data == SetDirectionInteger(s.data, s.player.value.direction)
              && r.scene.(data := s.data, awaitingFade := s.awaitingFade) == s
  {
    if Truthy(target) then
      match s.player
      case Some(p) => Handled(s.(data := SetDirectionInteger(s.data, p.direction), awaitingFade := Some(target)))
      case None => Handled(s)
    else
      Handled(s.(isFading := false, debounce := false))
  }

  /** The rest of `transitionScene`, run when the camera reports the fade-out
      complete (the fade-in is not awaited): record where the player came from
      and where it goes, drop the NPCs, start the target zone, and release
      both guards. Without a pending transition nothing listens. */
  function FadeOutComplete(s: Scene): (r: Scene)
    ensures s.awaitingFade.None? ==> r == s
    ensures s.awaitingFade.Some? ==>
              && r.data.pastScene == s.data.currentScene
              && r.data.currentScene == s.awaitingFade.value
              && r.data.direction == s.data.direction
              && r.npcs == []
              && r.started == s.awaitingFade
              && !r.isFading && !r.debounce && r.awaitingFade.None?
    ensures Consistent(r)
  {
    match s.awaitingFade
    case None => s
    case Some(t) =>
      var d := SetCurrentScene(SetPastScene(s.data, s.data.currentScene), t);
      s.(data := d, npcs := ClearNpcs(s.npcs), started := Some(t), awaitingFade := None, isFading := false, debounce := false)
  }

  /** The overlap callback of an exit. An exit that is not armed never reports
      an overlap. While `debounce` is set it does nothing. Otherwise it sets
      `debounce` and, unless a fade is running, sets `isFading` and starts the
      transition. An exit without a `targetScene` property throws when its
      value is read, before the transition could reset either guard. */
  function ExitOverlap(s: Scene, exit: Exit): (r: Outcome)
    ensures !exit.armed || s.debounce ==> r == Handled(s)
    ensures exit.armed && !s.debounce && s.isFading ==> r == Handled(s.(debounce := true))
    ensures exit.armed && !s.debounce && !s.isFading && FindProperty(exit.properties, "targetScene").None? ==>
              r == Threw(s.(debounce := true, isFading := true))
    ensures exit.armed && !s.debounce && !s.isFading && FindProperty(exit.properties, "targetScene").Some? ==>
              r == TransitionScene(s.(debounce := true, isFading := true), FindProperty(exit.properties, "targetScene").value)
    ensures Consistent(s) ==> Consistent(r.scene)
  {
    if !exit.armed || s.debounce then Handled(s)
    else
      var s1 := s.(debounce := true);
      if s1.isFading then Handled(s1)
      else
        var s2 := s1.(isFading := true);
        match FindProperty(exit.properties, "targetScene")
        case None => Threw(s2)
        case Some(t) => TransitionScene(s2, t)
  }

  /** The overlap callback fired `n` times in a row (frames of sustained overlap). */
  function OverlapRepeatedly(s: Scene, exit: Exit, n: nat): Outcome
    decreases n
  {
    if n == 0 then Handled(s)
    else
      match ExitOverlap(s, exit)
      case Handled(s1) => OverlapRepeatedly(s1, exit, n - 1)
      case Threw(s1) => Threw(s1)
  }

  /** Sustained overlap of an armed exit with a target starts exactly one
      transition: every call after the first finds `debounce` set and returns. */
  lemma {:induction false} OverlapStartsOneTransition(s: Scene, exit: Exit, n: nat)
    requires exit.armed && !s.debounce && !s.isFading && s.player.Some?
    requires FindProperty(exit.properties, "targetScene").Some? && Truthy(FindProperty(exit.properties, "targetScene").value)
    requires n >= 1
    ensures OverlapRepeatedly(s, exit, n) == ExitOverlap(s, exit)
    ensures ExitOverlap(s, exit).Handled?
    ensures ExitOverlap(s, exit).scene.awaitingFade == FindProperty(exit.properties, "targetScene")
    decreases n
  {
    var first := ExitOverlap(s, exit).scene;
    StaysPut(first, exit, n - 1);
  }

  /** While `debounce` is set, any number of overlap calls, of any exit, change nothing. */
  lemma {:induction false} StaysPut(s: Scene, exit: Exit, n: nat)
    requires s.debounce
    ensures OverlapRepeatedly(s, exit, n) == Handled(s)
    decreases n
  {
    if n > 0 {
      StaysPut(s, exit, n - 1);
    }
  }

  /** An exit that is not armed changes nothing, however long the player
      stands on it. */
  lemma {:induction false} UnarmedExitNeverFires(s: Scene, exit: Exit, n: nat)
    requires !exit.armed
    ensures OverlapRepeatedly(s, exit, n) == Handled(s)
    decreases n
  {
    if n > 0 {
      UnarmedExitNeverFires(s, exit, n - 1);
    }
  }

  /** An armed exit without a `targetScene` throws with both guards left set,
      and from then on no exit of the scene can ever fire and no fade
      completion releases them. */
  lemma MissingTargetLocksExits(s: Scene, exit: Exit, other: Exit, n: nat)
    requires Consistent(s) && !s.debounce && !s.isFading && exit.armed
    requires forall i :: 0 <= i < |exit.properties| ==> exit.properties[i].name != "targetScene"
    ensures ExitOverlap(s, exit).Threw?
    ensures var stuck := ExitOverlap(s, exit).scene;
            stuck.debounce && stuck.isFading && stuck.data == s.data && stuck.started == s.started
            && OverlapRepeatedly(stuck, other, n) == Handled(stuck)
            && FadeOutComplete(stuck) == stuck
  {
    StaysPut(ExitOverlap(s, exit).scene, other, n);
  }

  /** Reaching an armed exit with a target while the scene holds no player:
      the transition's promise is rejected before any fade starts, the callback
      returns normally, and both guards stay set for good, so no exit fires
      again and no fade completion releases them. */
  lemma NoPlayerLocksExits(s: Scene, exit: Exit, other: Exit, n: nat)
    requires Consistent(s) && !s.debounce && !s.isFading && exit.armed && s.player.None?
    requires FindProperty(exit.properties, "targetScene").Some? && Truthy(FindProperty(exit.properties, "targetScene").value)
    ensures ExitOverlap(s, exit) == Handled(s.(debounce := true, isFading := true))
    ensures var stuck := ExitOverlap(s, exit).scene;
            OverlapRepeatedly(stuck, other, n) == Handled(stuck) && FadeOutComplete(stuck) == stuck
  {
    StaysPut(ExitOverlap(s, exit).scene, other, n);
  }

  /** An armed exit whose `targetScene` is present but empty releases both
      guards at once and neither touches the player data nor navigates. */
  lemma FalsyTargetReleasesGuards(s: Scene, exit: Exit)
    requires !s.debounce && !s.isFading && exit.armed
    requires FindProperty(exit.properties, "targetScene") == Some("")
    ensures ExitOverlap(s, exit) == Handled(s)
  {
  }

  /** A full handoff: overlap, then fade-out complete. The save record gets the
      facing, the old zone as past scene and the target as current scene; the
      NPC list is empty; the target is started; both guards are free again. */
  lemma HandoffCompletes(s: Scene, exit: Exit, target: string)
    requires !s.debounce && !s.isFading && s.player.Some? && exit.armed
    requires FindProperty(exit.properties, "targetScene") == Some(target) && Truthy(target)
    ensures var r := FadeOutComplete(ExitOverlap(s, exit).scene);
            && r.data.direction == Some(s.player.value.direction)
            && r.data.pastScene == s.data.currentScene
            && r.data.currentScene == target
            && r.data.(direction := s.data.direction, pastScene := s.data.pastScene, currentScene := s.data.currentScene) == s.data
            && r.npcs == [] && r.started == Some(target)
            && !r.isFading && !r.debounce
  {
  }

  /** The bounds of the player's 32x32 sprite, centred on its position. */
  function SpriteBounds(p: Pos): Rect {
    Rect(p.x - TileWidth / 2, p.y - TileWidth / 2, TileWidth, TileWidth)
  }

  /** A sign list after the sign loop, seen against the player's bounds: the
      same zones, and each sign shows exactly when its zone overlaps them. */
  predicate ShowsOverlapping(before: seq<Sign>, after: seq<Sign>, player: Rect, overlaps: (Rect, Rect) -> bool) {
    |after| == |before|
    && forall i :: 0 <= i < |before| ==>
         after[i].zone == before[i].zone
         && after[i].rectVisible == after[i].textVisible == after[i].activated == overlaps(player, before[i].zone)
  }

  /** A spawn point the loader takes: one that names the zone the player came
      from, or any spawn point when the save is not active yet. */
  predicate Accepts(pd: PlayerData, o: LevelObject) {
    o.SpawnObject? && (o.fromScene == pd.pastScene || !pd.active)
  }

  /** `create`, step for one object of the level's object layer, in layer
      order. An object without its first property is passed over here:
      `Create` stops before it, since reading that property throws. */
  function LoadObject(s: Scene, o: LevelObject): (r: Scene)
    ensures Accepts(s.data, o) ==>
              r.player == Some(PlayerMotion.NewPlayer(if s.data.active then o.pos else s.data.position, s.data))
              && r.data == SetActive(s.data, true) && r.spawned
    ensures !Accepts(s.data, o) ==> r.player == s.player && r.data == s.data && r.spawned == s.spawned
    ensures o.SignObject? ==> r.signs == s.signs + [NewSign(o.zone)]
    ensures !o.SignObject? ==> r.signs == s.signs
    ensures o.BigSignObject? ==> r.bigSigns == s.bigSigns + [NewSign(o.zone)]
    ensures !o.BigSignObject? ==> r.bigSigns == s.bigSigns
    ensures o.ExitObject? ==> r.exits == s.exits + [Exit(o.properties, s.spawned)] && !r.debounce
    ensures !o.ExitObject? ==> r.exits == s.exits && r.debounce == s.debounce
    ensures r.npcs == s.npcs && r.isFading == s.isFading && r.flags == s.flags && r.data.pastScene == s.data.pastScene
  {
    match o
    case SignObject(z) => s.(signs := s.signs + [NewSign(z)])
    case ExitObject(props) => s.(exits := s.exits + [Exit(props, s.spawned)], debounce := false)
    case SpawnObject(pos, from) =>
      if from == s.data.pastScene || !s.data.active then
        if !s.data.active then
          s.(player := Some(PlayerMotion.NewPlayer(s.data.position, s.data)), data := SetActive(s.data, true), spawned := true)
        else
          s.(player := Some(PlayerMotion.NewPlayer(pos, s.data)), spawned := true)
      else s
    case BigSignObject(z) => s.(bigSigns := s.bigSigns + [NewSign(z)])
    case PropertylessObject => s
    case OtherObject => s
  }

  /** The zones of the layer's signs of one kind, in layer order. */
  function ZonesOf(objects: seq<LevelObject>, k: SignKind): seq<Rect>
    decreases |objects|
  {
    if |objects| == 0 then []
    else if k == SmallSign && objects[0].SignObject? then [objects[0].zone] + ZonesOf(objects[1..], k)
    else if k == BigSign && objects[0].BigSignObject? then [objects[0].zone] + ZonesOf(objects[1..], k)
    else ZonesOf(objects[1..], k)
  }

  /** Fresh, hidden signs for a list of zones. */
  function NewSigns(zones: seq<Rect>): seq<Sign> {
    seq(|zones|, i requires 0 <= i < |zones| => NewSign(zones[i]))
  }

  /** The property lists of the layer's exits, in layer order. */
  function ExitProps(objects: seq<LevelObject>): seq<seq<Property>>
    decreases |objects|
  {
    if |objects| == 0 then []
    else if objects[0].ExitObject? then [objects[0].properties] + ExitProps(objects[1..])
    else ExitProps(objects[1..])
  }

  /** The property lists of a scene's exits. */
  function Props(exits: seq<Exit>): seq<seq<Property>> {
    seq(|exits|, i requires 0 <= i < |exits| => exits[i].properties)
  }

  predicate IsSpawnFrom(o: LevelObject, tag: string) {
    o.SpawnObject? && o.fromScene == tag
  }

  /** The position of the LAST spawn point whose tag is `tag`, if any. */
  function LastSpawnFrom(objects: seq<LevelObject>, tag: string): (r: Option<Pos>)
    ensures r.None? <==> forall i :: 0 <= i < |objects| ==> !IsSpawnFrom(objects[i], tag)
    ensures r.Some? ==> exists i :: 0 <= i < |objects| && objects[i] == SpawnObject(r.value, tag)
                                    && forall j :: i < j < |objects| ==> !IsSpawnFrom(objects[j], tag)
    decreases |objects|
  {
    if |objects| == 0 then None
    else
      var rest := LastSpawnFrom(objects[1..], tag);
      if rest.Some? then
        var i :| 0 <= i < |objects| - 1 && objects[1..][i] == SpawnObject(rest.value, tag)
                 && forall j :: i < j < |objects| - 1 ==> !IsSpawnFrom(objects[1..][j], tag);
        assert objects[i + 1] == SpawnObject(rest.value, tag);
        NoSpawnAfterShift(objects, tag, i);
        rest
      else if IsSpawnFrom(objects[0], tag) then
        NoSpawnAfterShift(objects, tag, -1);
        Some(objects[0].pos)
      else rest
  }

  lemma NoSpawnAfterShift(objects: seq<LevelObject>, tag: string, i: int)
    requires |objects| > 0 && -1 <= i
    requires forall j :: i < j < |objects| - 1 ==> !IsSpawnFrom(objects[1..][j], tag)
    ensures forall j :: i + 1 < j < |objects| ==> !IsSpawnFrom(objects[j], tag)
  {
    forall j | i + 1 < j < |objects|
      ensures !IsSpawnFrom(objects[j], tag)
    {
      assert objects[j] == objects[1..][j - 1];
    }
  }

  /** All objects of the layer, first to last. Signs, big signs and exits are
      appended in layer order; an exit is armed exactly when a spawn point has
      created the player before it. With an active save the player is created
      at the LAST spawn point tagged with the zone it came from, every earlier
      matching one being overwritten; with no such spawn point it is left as it
      was. */
  function LoadObjects(s: Scene, objects: seq<LevelObject>): (r: Scene)
    ensures r.npcs == s.npcs && r.isFading == s.isFading && r.flags == s.flags
    ensures r.signs == s.signs + NewSigns(ZonesOf(objects, SmallSign))
    ensures r.bigSigns == s.bigSigns + NewSigns(ZonesOf(objects, BigSign))
    ensures |s.exits| <= |r.exits| && r.exits[..|s.exits|] == s.exits
    ensures Props(r.exits) == Props(s.exits) + ExitProps(objects)
    ensures ExitProps(objects) != [] ==> !r.debounce
    ensures ExitProps(objects) == [] ==> r.debounce == s.debounce
    ensures s.spawned ==> r.spawned && forall i :: |s.exits| <= i < |r.exits| ==> r.exits[i].armed
    ensures (forall i :: 0 <= i < |objects| ==> !Accepts(s.data, objects[i])) ==>
              r.player == s.player && r.data == s.data && r.spawned == s.spawned
              && forall i :: |s.exits| <= i < |r.exits| ==> r.exits[i].armed == s.spawned
    ensures s.data.active ==> r.data == s.data
    ensures s.data.active && LastSpawnFrom(objects, s.data.pastScene).Some? ==>
              r.spawned && r.player == Some(PlayerMotion.NewPlayer(LastSpawnFrom(objects, s.data.pastScene).value, s.data))
    decreases |objects|
  {
    if |objects| == 0 then
      assert NewSigns([]) == [];
      s
    else
      var s1 := LoadObject(s, objects[0]);
      var r := LoadObjects(s1, objects[1..]);
      LoadStepSigns(s, objects, s1, r);
      LoadStepExits(s, objects, s1, r);
      LoadStepExitPrefix(s, objects, s1, r);
      LoadStepArmed(s, objects, s1, r);
      LoadStepNoSpawn(s, objects, s1, r);
      LoadStepActive(s, objects, s1, r);
      r
  }

  /** The inductive step of `LoadObjects` for the sign lists: the first
      object's sign, if it is one, then the rest's. */
  lemma LoadStepSigns(s: Scene, objects: seq<LevelObject>, s1: Scene, r: Scene)
    requires |objects| > 0 && s1 == LoadObject(s, objects[0])
    requires r.signs == s1.signs + NewSigns(ZonesOf(objects[1..], SmallSign))
    requires r.bigSigns == s1.bigSigns + NewSigns(ZonesOf(objects[1..], BigSign))
    ensures r.signs == s.signs + NewSigns(ZonesOf(objects, SmallSign))
    ensures r.bigSigns == s.bigSigns + NewSigns(ZonesOf(objects, BigSign))
  {
    var o, rest := objects[0], objects[1..];
    SignsAppend(s.signs, ZonesOf(objects, SmallSign), o.SignObject?, ZonesOf(rest, SmallSign), if o.SignObject? then o.zone else Rect(0, 0, 0, 0));
    SignsAppend(s.bigSigns, ZonesOf(objects, BigSign), o.BigSignObject?, ZonesOf(rest, BigSign), if o.BigSignObject? then o.zone else Rect(0, 0, 0, 0));
  }

  /** The inductive step of `LoadObjects` for the exit list: the first
      object's exit, if it is one, then the rest's. */
  lemma LoadStepExits(s: Scene, objects: seq<LevelObject>, s1: Scene, r: Scene)
    requires |objects| > 0 && s1 == LoadObject(s, objects[0])
    requires Props(r.exits) == Props(s1.exits) + ExitProps(objects[1..])
    ensures Props(r.exits) == Props(s.exits) + ExitProps(objects)
  {
    var o, rest := objects[0], objects[1..];
    if o.ExitObject? {
      PropsSnoc(s.exits, Exit(o.properties, s.spawned));
      assert ExitProps(objects) == [o.properties] + ExitProps(rest);
      ConcatAssoc(Props(s.exits), [o.properties], ExitProps(rest));
    } else {
      assert ExitProps(objects) == ExitProps(rest);
    }
  }

  /** The inductive step of `LoadObjects` for the exits already present and
      for `debounce`, which every exit loaded resets. */
  lemma LoadStepExitPrefix(s: Scene, objects: seq<LevelObject>, s1: Scene, r: Scene)
    requires |objects| > 0 && s1 == LoadObject(s, objects[0])
    requires |s1.exits| <= |r.exits| && r.exits[..|s1.exits|] == s1.exits
    requires ExitProps(objects[1..]) != [] ==> !r.debounce
    requires ExitProps(objects[1..]) == [] ==> r.debounce == s1.debounce
    ensures |s.exits| <= |r.exits| && r.exits[..|s.exits|] == s.exits
    ensures ExitProps(objects) != [] ==> !r.debounce
    ensures ExitProps(objects) == [] ==> r.debounce == s.debounce
  {
    if objects[0].ExitObject? {
      assert ExitProps(objects) == [objects[0].properties] + ExitProps(objects[1..]);
    } else {
      assert ExitProps(objects) == ExitProps(objects[1..]);
    }
    assert r.exits[..|s.exits|] == r.exits[..|s1.exits|][..|s.exits|];
  }

  lemma ConcatAssoc<T>(a: seq<T>, b: seq<T>, c: seq<T>)
    ensures (a + b) + c == a + (b + c)
  {
  }

  lemma PropsSnoc(exits: seq<Exit>, e: Exit)
    ensures Props(exits + [e]) == Props(exits) + [e.properties]
  {
  }

  /** The inductive step of `LoadObjects` for arming: once the player has
      spawned, every exit loaded after is armed. */
  lemma LoadStepArmed(s: Scene, objects: seq<LevelObject>, s1: Scene, r: Scene)
    requires |objects| > 0 && s1 == LoadObject(s, objects[0])
    requires |s1.exits| <= |r.exits| && r.exits[..|s1.exits|] == s1.exits
    requires s1.spawned ==> r.spawned && forall i :: |s1.exits| <= i < |r.exits| ==> r.exits[i].armed
    ensures s.spawned ==> r.spawned && forall i :: |s.exits| <= i < |r.exits| ==> r.exits[i].armed
  {
    if s.spawned && objects[0].ExitObject? {
      assert r.exits[|s.exits|] == s1.exits[|s.exits|];
    }
  }

  /** The inductive step of `LoadObjects` when the loader takes no spawn
      point: player, save and the arming of new exits stay as they were. */
  lemma LoadStepNoSpawn(s: Scene, objects: seq<LevelObject>, s1: Scene, r: Scene)
    requires |objects| > 0 && s1 == LoadObject(s, objects[0])
    requires |s1.exits| <= |r.exits| && r.exits[..|s1.exits|] == s1.exits
    requires (forall i :: 0 <= i < |objects[1..]| ==> !Accepts(s1.data, objects[1..][i])) ==>
               r.player == s1.player && r.data == s1.data && r.spawned == s1.spawned
               && forall i :: |s1.exits| <= i < |r.exits| ==> r.exits[i].armed == s1.spawned
    ensures (forall i :: 0 <= i < |objects| ==> !Accepts(s.data, objects[i])) ==>
              r.player == s.player && r.data == s.data && r.spawned == s.spawned
              && forall i :: |s.exits| <= i < |r.exits| ==> r.exits[i].armed == s.spawned
  {
    var o, rest := objects[0], objects[1..];
    if forall i :: 0 <= i < |objects| ==> !Accepts(s.data, objects[i]) {
      assert !Accepts(s.data, o);
      forall i | 0 <= i < |rest| ensures !Accepts(s1.data, rest[i]) {
        assert rest[i] == objects[i + 1];
      }
      if o.ExitObject? {
        assert r.exits[|s.exits|] == s1.exits[|s.exits|];
      }
    }
  }

  /** The inductive step of `LoadObjects` with an active save: the save is
      untouched and the last spawn point tagged with the zone the player came
      from places it. */
  lemma LoadStepActive(s: Scene, objects: seq<LevelObject>, s1: Scene, r: Scene)
    requires |objects| > 0 && s1 == LoadObject(s, objects[0])
    requires s1.spawned ==> r.spawned
    requires (forall i :: 0 <= i < |objects[1..]| ==> !Accepts(s1.data, objects[1..][i])) ==>
               r.player == s1.player && r.data == s1.data && r.spawned == s1.spawned
    requires s1.data.active ==> r.data == s1.data
    requires s1.data.active && LastSpawnFrom(objects[1..], s1.data.pastScene).Some? ==>
               r.spawned && r.player == Some(PlayerMotion.NewPlayer(LastSpawnFrom(objects[1..], s1.data.pastScene).value, s1.data))
    ensures s.data.active ==> r.data == s.data
    ensures s.data.active && LastSpawnFrom(objects, s.data.pastScene).Some? ==>
              r.spawned && r.player == Some(PlayerMotion.NewPlayer(LastSpawnFrom(objects, s.data.pastScene).value, s.data))
  {
    if s.data.active && LastSpawnFrom(objects[1..], s.data.pastScene).None? && Accepts(s.data, objects[0]) {
      forall i | 0 <= i < |objects[1..]| ensures !Accepts(s1.data, objects[1..][i]) {
        assert !IsSpawnFrom(objects[1..][i], s.data.pastScene);
      }
    }
  }

  /** One step of appending fresh signs: the first object's sign, if it is
      one, then the rest's. */
  lemma SignsAppend(before: seq<Sign>, zones: seq<Rect>, isSign: bool, restZones: seq<Rect>, z: Rect)
    requires zones == (if isSign then [z] + restZones else restZones)
    ensures (if isSign then before + [NewSign(z)] else before) + NewSigns(restZones) == before + NewSigns(zones)
  {
    if isSign {
      assert NewSigns(zones) == [NewSign(z)] + NewSigns(restZones);
    }
  }

  /** The part of the layer `create` gets through: every object before the
      first one whose first property is missing. */
  function ReadPart(objects: seq<LevelObject>): (r: seq<LevelObject>)
    ensures |r| <= |objects| && r == objects[..|r|]
    ensures forall i :: 0 <= i < |r| ==> !r[i].PropertylessObject?
    ensures |r| < |objects| ==> objects[|r|].PropertylessObject?
    decreases |objects|
  {
    if |objects| == 0 || objects[0].PropertylessObject? then []
    else [objects[0]] + ReadPart(objects[1..])
  }

  /** A prefix without unreadable objects is read through entirely. */
  lemma {:induction false} ReadPartAppend(a: seq<LevelObject>, b: seq<LevelObject>)
    requires forall i :: 0 <= i < |a| ==> !a[i].PropertylessObject?
    ensures ReadPart(a + b) == a + ReadPart(b)
    decreases |a|
  {
    if |a| > 0 {
      assert (a + b)[0] == a[0] && (a + b)[1..] == a[1..] + b;
      ReadPartAppend(a[1..], b);
    } else {
      assert a + b == b;
    }
  }

  /** `create`: take the handed-over save record, reset the sign lists and flags,
      and load the object layer. The scene object is reused across visits, so
      its NPC list, `isFading` and any earlier player carry over; only the
      exits after this visit's first accepted spawn point are armed. An object
      without its first property throws: the objects before it are loaded,
      none after it, and `create` does not finish. */
  function Create(s: Scene, pd: PlayerData, objects: seq<LevelObject>): (r: Outcome)
    ensures r.Threw? <==> exists i :: 0 <= i < |objects| && objects[i].PropertylessObject?
    ensures var read := ReadPart(objects);
            && r.scene.npcs == s.npcs && r.scene.isFading == s.isFading && r.scene.flags == SceneFlags(false, false)
            && r.scene.signs == NewSigns(ZonesOf(read, SmallSign))
            && r.scene.bigSigns == NewSigns(ZonesOf(read, BigSign))
            && Props(r.scene.exits) == ExitProps(read)
    ensures var read := ReadPart(objects);
            (forall i :: 0 <= i < |read| ==> !Accepts(pd, read[i])) ==>
              r.scene.player == s.player && r.scene.data == pd && !r.scene.spawned
              && forall i :: 0 <= i < |r.scene.exits| ==> !r.scene.exits[i].armed
    ensures pd.active ==> r.scene.data == pd
    ensures var read := ReadPart(objects);
            pd.active && LastSpawnFrom(read, pd.pastScene).Some? ==>
              r.scene.player == Some(PlayerMotion.NewPlayer(LastSpawnFrom(read, pd.pastScene).value, pd))
  {
    var start := s.(data := pd, spawned := false, signs := [], bigSigns := [], exits := [], flags := SceneFlags(false, false), started := None);
    assert Props([]) == [];
    var read := ReadPart(objects);
    var loaded := LoadObjects(start, read);
    if |read| < |objects| then
      Threw(loaded)
    else
      assert forall i :: 0 <= i < |objects| ==> objects[i] == read[i];
      Handled(loaded)
  }

  /** Loading runs object by object, so a layer split in two loads the same as
      loading the first part and then the second. */
  lemma {:induction false} LoadObjectsAppend(s: Scene, a: seq<LevelObject>, b: seq<LevelObject>)
    ensures LoadObjects(s, a + b) == LoadObjects(LoadObjects(s, a), b)
    decreases |a|
  {
    if |a| == 0 {
      assert a + b == b;
    } else {
      assert (a + b)[0] == a[0] && (a + b)[1..] == a[1..] + b;
      LoadObjectsAppend(LoadObject(s, a[0]), a[1..], b);
    }
  }

  /** Reading an object without its first property aborts `create`: what it
      leaves is exactly what the objects before it built. */
  lemma UnreadableObjectAbortsLayer(s: Scene, pd: PlayerData, a: seq<LevelObject>, b: seq<LevelObject>)
    requires forall i :: 0 <= i < |a| ==> !a[i].PropertylessObject?
    ensures Create(s, pd, a).Handled?
    ensures Create(s, pd, a + [PropertylessObject] + b) == Threw(Create(s, pd, a).scene)
  {
    ReadPartAppend(a, [PropertylessObject] + b);
    assert ReadPart([PropertylessObject] + b) == [];
    ReadPartAppend(a, []);
    assert a + [] == a && a + [PropertylessObject] + b == a + ([PropertylessObject] + b);
  }

  /** Loading a fresh game (inactive save): the first spawn point, whatever its
      tag, puts the player at the saved position and activates the save; from
      then on the save is active, so a later spawn point tagged with the zone
      the player last left moves it there, the last such one read winning. */
  lemma FreshGameSpawnsAtSavedPosition(s: Scene, pd: PlayerData, before: seq<LevelObject>, spawn: Pos, from: string, after: seq<LevelObject>)
    requires !pd.active
    requires forall i :: 0 <= i < |before| ==> !before[i].SpawnObject? && !before[i].PropertylessObject?
    ensures var r := Create(s, pd, before + [SpawnObject(spawn, from)] + after).scene;
            var rest := ReadPart(after);
            && r.data == SetActive(pd, true) && r.player.Some?
            && (LastSpawnFrom(rest, pd.pastScene).None? ==> r.player.value == PlayerMotion.NewPlayer(pd.position, pd))
            && (LastSpawnFrom(rest, pd.pastScene).Some? ==>
                  r.player.value == PlayerMotion.NewPlayer(LastSpawnFrom(rest, pd.pastScene).value, SetActive(pd, true)))
  {
    var start := s.(data := pd, spawned := false, signs := [], bigSigns := [], exits := [], flags := SceneFlags(false, false), started := None);
    var spawnObj := [SpawnObject(spawn, from)];
    var rest := ReadPart(after);
    assert forall i :: 0 <= i < |before + spawnObj| ==> !(before + spawnObj)[i].PropertylessObject?;
    ReadPartAppend(before + spawnObj, after);
    assert Create(s, pd, before + spawnObj + after).scene == LoadObjects(start, before + spawnObj + rest);
    LoadObjectsAppend(start, before + spawnObj, rest);
    LoadObjectsAppend(start, before, spawnObj);
    var s1 := LoadObjects(start, before);
    assert forall i :: 0 <= i < |before| ==> !Accepts(pd, before[i]);
    var s2 := LoadObjects(s1, spawnObj);
    assert spawnObj[1..] == [];
    assert s2 == LoadObject(s1, SpawnObject(spawn, from));
    assert s2.player == Some(PlayerMotion.NewPlayer(pd.position, pd)) && s2.data == SetActive(pd, true);
  }

  /** A layer without unreadable objects is loaded whole. */
  lemma ReadWhole(objects: seq<LevelObject>)
    requires forall i :: 0 <= i < |objects| ==> !objects[i].PropertylessObject?
    ensures ReadPart(objects) == objects
  {
    ReadPartAppend(objects, []);
    assert objects + [] == objects;
  }

  /** Returning to a zone with an active save uses the spawn point whose tag
      names the zone the player came from and skips the others. */
  lemma ReturnUsesMatchingSpawn(s: Scene, pd: PlayerData, here: Pos, elsewhere: Pos, otherZone: string)
    requires pd.active && otherZone != pd.pastScene
    ensures var r := Create(s, pd, [SpawnObject(here, pd.pastScene), SpawnObject(elsewhere, otherZone)]);
            r.Handled? && r.scene.player.Some? && r.scene.player.value.pos == here && r.scene.data == pd
  {
    var objs := [SpawnObject(here, pd.pastScene), SpawnObject(elsewhere, otherZone)];
    ReadWhole(objs);
    assert objs[1..] == [objs[1]] && objs[1..][1..] == [];
    assert LastSpawnFrom(objs, pd.pastScene) == Some(here);
  }

  /** An exit listed before the spawn point registers its overlap before this
      visit's player exists and never fires; listed after it, it is armed. */
  lemma ExitBeforeSpawnIsDead(s: Scene, pd: PlayerData, props: seq<Property>, at: Pos)
    requires pd.active
    ensures Create(s, pd, [ExitObject(props), SpawnObject(at, pd.pastScene)]).scene.exits == [Exit(props, false)]
    ensures Create(s, pd, [SpawnObject(at, pd.pastScene), ExitObject(props)]).scene.exits == [Exit(props, true)]
  {
    var start := s.(data := pd, spawned := false, signs := [], bigSigns := [], exits := [], flags := SceneFlags(false, false), started := None);
    var a := [ExitObject(props), SpawnObject(at, pd.pastScene)];
    var b := [SpawnObject(at, pd.pastScene), ExitObject(props)];
    ReadWhole(a);
    ReadWhole(b);
    assert a[1..] == [a[1]] && a[1..][1..] == [];
    assert b[1..] == [b[1]] && b[1..][1..] == [];
    var a1 := LoadObject(start, a[0]);
    assert LoadObjects(start, a) == LoadObjects(a1, a[1..]);
    assert LoadObjects(a1, a[1..]) == LoadObjects(LoadObject(a1, a[1]), []);
    var b1 := LoadObject(start, b[0]);
    assert LoadObjects(start, b) == LoadObjects(b1, b[1..]);
    assert LoadObjects(b1, b[1..]) == LoadObjects(LoadObject(b1, b[1]), []);
  }

  /** `preUpdate` of every NPC, in list order, seeing the player at `pl`. */
  function PreUpdateAll(npcs: seq<Patrol.Npc>, pl: Pos): (r: seq<Patrol.Npc>)
    ensures |r| == |npcs|
    ensures forall i :: 0 <= i < |npcs| ==> r[i] == Patrol.PreUpdate(npcs[i], pl)
    decreases |npcs|
  {
    if |npcs| == 0 then []
    else [Patrol.PreUpdate(npcs[0], pl)] + PreUpdateAll(npcs[1..], pl)
  }

  /** Two passes of `preUpdate` in one frame: the second decides what each
      NPC sees, and neither moves a body or a target. */
  lemma PreUpdateTwice(npcs: seq<Patrol.Npc>, first: Pos, second: Pos)
    ensures var r := PreUpdateAll(PreUpdateAll(npcs, first), second);
            |r| == |npcs|
            && forall i :: 0 <= i < |npcs| ==>
                 r[i].inSight == Patrol.LineOfSight(npcs[i].pos, npcs[i].direction, second)
                 && r[i].pos == npcs[i].pos && r[i].target == npcs[i].target
  {
    var once := PreUpdateAll(npcs, first);
    forall i | 0 <= i < |npcs|
      ensures once[i].pos == npcs[i].pos && once[i].direction == npcs[i].direction && once[i].target == npcs[i].target
    {
      assert once[i] == Patrol.PreUpdate(npcs[i], first);
    }
  }

  /** One frame. The engine first runs every NPC's `preUpdate` from its update
      list, seeing the player where the frame begins; then the scene's
      `update` checks all signs, then all big signs, against that same
      position, runs the player (and, nested in it, the companion), and runs
      every NPC's `preUpdate` a second time, now seeing the player where its
      step left it. Without a player the first sign, big sign or NPC visited
      throws. */
  function Frame(s: Scene, keys: PlayerMotion.Keys, resting: bool, overlaps: (Rect, Rect) -> bool): (r: Outcome)
    ensures s.player.None? ==> r.scene == s && (r.Threw? <==> |s.signs| + |s.bigSigns| + |s.npcs| > 0)
    ensures s.player.Some? ==> r.Handled? && r.scene.player.Some?
    ensures s.player.Some? ==>
              var step := PlayerMotion.Update(s.player.value, s.data, keys, resting);
              r.scene.player == Some(step.player) && r.scene.data == step.data
    ensures s.player.Some? ==>
              ShowsOverlapping(s.signs, r.scene.signs, SpriteBounds(s.player.value.pos), overlaps)
              && ShowsOverlapping(s.bigSigns, r.scene.bigSigns, SpriteBounds(s.player.value.pos), overlaps)
    ensures s.player.Some? && |s.signs| > 0 ==>
              r.scene.flags.showingSign == overlaps(SpriteBounds(s.player.value.pos), s.signs[|s.signs| - 1].zone)
    ensures s.player.Some? && |s.bigSigns| > 0 ==>
              r.scene.flags.showingBigSign == overlaps(SpriteBounds(s.player.value.pos), s.bigSigns[|s.bigSigns| - 1].zone)
    ensures s.player.Some? ==>
              |r.scene.npcs| == |s.npcs|
              && forall i :: 0 <= i < |s.npcs| ==>
                   r.scene.npcs[i].inSight == Patrol.LineOfSight(s.npcs[i].pos, s.npcs[i].direction, r.scene.player.value.pos)
                   && r.scene.npcs[i].pos == s.npcs[i].pos && r.scene.npcs[i].target == s.npcs[i].target
    ensures r.scene.isFading == s.isFading && r.scene.debounce == s.debounce && r.scene.awaitingFade == s.awaitingFade
    ensures r.scene.exits == s.exits
  {
    match s.player
    case None =>
      if |s.signs| + |s.bigSigns| + |s.npcs| > 0 then Threw(s) else Handled(s)
    case Some(p) =>
      var engine := PreUpdateAll(s.npcs, p.pos);
      var bounds := SpriteBounds(p.pos);
      var small := CheckAll(SmallSign, s.signs, s.flags, bounds, overlaps);
      var big := CheckAll(BigSign, s.bigSigns, small.flags, bounds, overlaps);
      var step := PlayerMotion.Update(p, s.data, keys, resting);
      PreUpdateTwice(s.npcs, p.pos, step.player.pos);
      Handled(s.(signs := small.signs, bigSigns := big.signs, flags := big.flags,
                 player := Some(step.player), data := step.data,
                 npcs := PreUpdateAll(engine, step.player.pos)))
  }

  /** An NPC that catches sight of the player where a frame begins, and loses
      it where the player's step ends, shows and hides its text and schedules
      its next move within that one frame. */
  lemma GlimpseWithinOneFrame(s: Scene, keys: PlayerMotion.Keys, resting: bool, overlaps: (Rect, Rect) -> bool, i: nat)
    requires s.player.Some? && i < |s.npcs|
    requires !s.npcs[i].inSight && !s.npcs[i].shouldResume
    requires Patrol.LineOfSight(s.npcs[i].pos, s.npcs[i].direction, s.player.value.pos)
    requires !Patrol.LineOfSight(s.npcs[i].pos, s.npcs[i].direction, PlayerMotion.Update(s.player.value, s.data, keys, resting).player.pos)
    ensures var n := Frame(s, keys, resting, overlaps).scene.npcs[i];
            !n.inSight && !n.textShown && n.movePending
  {
    var p := s.player.value;
    var seen := Patrol.PreUpdate(s.npcs[i], p.pos);
    assert seen.inSight && !seen.shouldResume;
    var step := PlayerMotion.Update(p, s.data, keys, resting);
    assert Frame(s, keys, resting, overlaps).scene.npcs[i] == Patrol.PreUpdate(seen, step.player.pos);
  }

  /** The engine's physics step between frames: the player's body and the
      companion's seek their targets, and every NPC's body moves as its last
      `preUpdate` left it, each covering at most its reach per axis. Nothing
      but positions changes. */
  function Physics(s: Scene, reach: nat, companionReach: nat, npcReach: nat): (r: Scene)
    ensures r.(player := s.player, npcs := s.npcs) == s
    ensures r.player.Some? == s.player.Some?
    ensures s.player.Some? ==>
              r.player == Some(PlayerMotion.Advance(s.player.value, reach, companionReach))
              && r.player.value.(pos := s.player.value.pos, max := s.player.value.max) == s.player.value
              && DistSq(r.player.value.pos, s.player.value.target) <= DistSq(s.player.value.pos, s.player.value.target)
    ensures |r.npcs| == |s.npcs|
    ensures forall i :: 0 <= i < |s.npcs| ==>
              r.npcs[i] == Patrol.Advance(s.npcs[i], npcReach) && r.npcs[i].(pos := s.npcs[i].pos) == s.npcs[i]
    ensures forall i :: 0 <= i < |s.npcs| && !s.npcs[i].inSight ==>
              DistSq(r.npcs[i].pos, s.npcs[i].target) <= DistSq(s.npcs[i].pos, s.npcs[i].target)
  {
    var npcs := seq(|s.npcs|, i requires 0 <= i < |s.npcs| => Patrol.Advance(s.npcs[i], npcReach));
    match s.player
    case Some(p) => s.(player := Some(PlayerMotion.Advance(p, reach, companionReach)), npcs := npcs)
    case None => s.(npcs := npcs)
  }

  /** Physics never carries an unaware patrolling NPC out of its box. A
      sighted one can glide out (`Patrol.SightedPatrolDriftsOutOfBox`). */
  lemma PhysicsKeepsPatrolsInBox(s: Scene, reach: nat, companionReach: nat, npcReach: nat)
    requires forall i :: 0 <= i < |s.npcs| ==> Patrol.InBox(s.npcs[i].pos, s.npcs[i].bounds) && Patrol.InBox(s.npcs[i].target, s.npcs[i].bounds)
    ensures var r := Physics(s, reach, companionReach, npcReach);
            forall i :: 0 <= i < |r.npcs| && !s.npcs[i].inSight ==> Patrol.InBox(r.npcs[i].pos, r.npcs[i].bounds)
  {
    var r := Physics(s, reach, companionReach, npcReach);
    forall i | 0 <= i < |r.npcs| && !s.npcs[i].inSight
      ensures Patrol.InBox(r.npcs[i].pos, r.npcs[i].bounds)
    {
      Patrol.AdvanceStaysInBox(s.npcs[i], npcReach);
    }
  }

  /** The camera offset that centres a map smaller than the view:
      `(max - size) / 2` when smaller, else 0. */
  function CameraOffset(size: int, maxSize: int): (r: real)
    ensures r >= 0.0
    ensures size < maxSize ==> 2.0 * r + size as real == maxSize as real
    ensures size >= maxSize ==> r == 0.0
  {
    if size < maxSize then (maxSize - size) as real / 2.0 else 0.0
  }
}

=== FILE: signs.dfy ===
/** Proximity signs: zones that show their text while the player's bounds
    overlap them and hide it otherwise. Small signs and big (full-screen) signs
    trigger identically and differ only in which scene-level flag they write. */
module ProximitySigns {
  import opened Grid

  datatype SignKind = SmallSign | BigSign

  /** One sign zone and its text box. `showByClick` and `activated` start out
      unset in the source; the model starts them at false. */
  datatype Sign = Sign(zone: Rect, rectVisible: bool, textVisible: bool, showByClick: bool, activated: bool)

  /** The scene's "a sign is showing" and "a big sign is showing" flags. */
  datatype SceneFlags = SceneFlags(showingSign: bool, showingBigSign: bool)

  datatype Checked = Checked(sign: Sign, flags: SceneFlags)

  datatype CheckedAll = CheckedAll(signs: seq<Sign>, flags: SceneFlags)

  function Other(k: SignKind): SignKind {
    if k == SmallSign then BigSign else SmallSign
  }

  /** The scene flag a kind of sign writes. */
  function Showing(f: SceneFlags, k: SignKind): bool {
    if k == SmallSign then f.showingSign else f.showingBigSign
  }

  function WithShowing(f: SceneFlags, k: SignKind, v: bool): (r: SceneFlags)
    ensures Showing(r, k) == v
    ensures Showing(r, Other(k)) == Showing(f, Other(k))
  {
    if k == SmallSign then f.(showingSign := v) else f.(showingBigSign := v)
  }

  function NewSign(zone: Rect): (r: Sign)
    ensures r.zone == zone && !r.rectVisible && !r.textVisible
  {
    Sign(zone, false, false, false, false)
  }

  /** `showSignText`: box and text visible, the sign activated, the scene flag
      of its kind set. */
  function ShowSignText(k: SignKind, s: Sign, f: SceneFlags): (r: Checked)
    ensures r.sign.rectVisible && r.sign.textVisible && r.sign.activated
    ensures r.sign.zone == s.zone && r.sign.showByClick == s.showByClick
    ensures Showing(r.flags, k) && Showing(r.flags, Other(k)) == Showing(f, Other(k))
  {
    Checked(s.(rectVisible := true, textVisible := true, activated := true), WithShowing(f, k, true))
  }

  /** `hideSignText`: box and text hidden, the sign deactivated and no longer
      shown by click, the scene flag of its kind cleared. */
  function HideSignText(k: SignKind, s: Sign, f: SceneFlags): (r: Checked)
    ensures !r.sign.rectVisible && !r.sign.textVisible && !r.sign.activated && !r.sign.showByClick
    ensures r.sign.zone == s.zone
    ensures !Showing(r.flags, k) && Showing(r.flags, Other(k)) == Showing(f, Other(k))
  {
    Checked(s.(rectVisible := false, textVisible := false, showByClick := false, activated := false), WithShowing(f, k, false))
  }

  /** `checkPlayerPosition`: the sign is shown exactly when the player's
      bounds overlap its zone. `overlaps` is the engine's rectangle test. */
  function CheckPlayerPosition(k: SignKind, s: Sign, f: SceneFlags, player: Rect, overlaps: (Rect, Rect) -> bool): (r: Checked)
    ensures r.sign.rectVisible == r.sign.textVisible == r.sign.activated == overlaps(player, s.zone)
    ensures Showing(r.flags, k) == overlaps(player, s.zone)
    ensures Showing(r.flags, Other(k)) == Showing(f, Other(k))
    ensures r.sign.zone == s.zone
  {
    if overlaps(player, s.zone) then ShowSignText(k, s, f) else HideSignText(k, s, f)
  }

  /** Checking a sign a second time against the same player bounds changes nothing more. */
  lemma CheckIdempotent(k: SignKind, s: Sign, f: SceneFlags, player: Rect, overlaps: (Rect, Rect) -> bool)
    ensures var once := CheckPlayerPosition(k, s, f, player, overlaps);
            CheckPlayerPosition(k, once.sign, once.flags, player, overlaps) == once
  {
  }

  /** The scene's per-frame loop over all signs of one kind, in order. The
      kind's flag ends up as the overlap of the LAST sign checked (every sign
      overwrites it), not "any sign overlaps"; the other kind's flag is untouched. */
  function CheckAll(k: SignKind, signs: seq<Sign>, f: SceneFlags, player: Rect, overlaps: (Rect, Rect) -> bool): (r: CheckedAll)
    ensures |r.signs| == |signs|
    ensures forall i :: 0 <= i < |signs| ==>
              r.signs[i].zone == signs[i].zone
              && r.signs[i].rectVisible == r.signs[i].textVisible == r.signs[i].activated == overlaps(player, signs[i].zone)
              && r.signs[i].showByClick == (signs[i].showByClick && overlaps(player, signs[i].zone))
    ensures |signs| > 0 ==> Showing(r.flags, k) == overlaps(player, signs[|signs| - 1].zone)
    ensures |signs| == 0 ==> r.flags == f
    ensures Showing(r.flags, Other(k)) == Showing(f, Other(k))
    decreases |signs|
  {
    if |signs| == 0 then CheckedAll([], f)
    else
      var first := CheckPlayerPosition(k, signs[0], f, player, overlaps);
      var rest := CheckAll(k, signs[1..], first.flags, player, overlaps);
      CheckedAll([first.sign] + rest.signs, rest.flags)
  }

  /** Re-running the loop against the same player bounds changes nothing more. */
  lemma CheckAllIdempotent(k: SignKind, signs: seq<Sign>, f: SceneFlags, player: Rect, overlaps: (Rect, Rect) -> bool)
    ensures var once := CheckAll(k, signs, f, player, overlaps);
            CheckAll(k, once.signs, once.flags, player, overlaps) == once
  {
    var once := CheckAll(k, signs, f, player, overlaps);
    var again := CheckAll(k, once.signs, once.flags, player, overlaps);
    forall i | 0 <= i < |signs|
      ensures again.signs[i] == once.signs[i]
    {
      var a, b := again.signs[i], once.signs[i];
      assert a.zone == b.zone == signs[i].zone;
      assert a.rectVisible == b.rectVisible && a.textVisible == b.textVisible;
      assert a.activated == b.activated && a.showByClick == b.showByClick;
    }
    assert again.signs == once.signs;
    assert Showing(again.flags, k) == Showing(once.flags, k);
    assert Showing(again.flags, Other(k)) == Showing(once.flags, Other(k));
    assert again.flags.showingSign == once.flags.showingSign;
  }

  /** With two signs where only the first overlaps the player, the scene ends
      up showing no sign: the flag is "last sign", not "any sign". */
  lemma LastSignWins(a: Rect, b: Rect, player: Rect, overlaps: (Rect, Rect) -> bool, f: SceneFlags)
    requires overlaps(player, a) && !overlaps(player, b)
    ensures var r := CheckAll(SmallSign, [NewSign(a), NewSign(b)], f, player, overlaps);
            r.signs[0].textVisible && !r.flags.showingSign
  {
  }
}
